=== FILE: README.md ===
# Sales-pipeline analysis and its validator, in Dafny

This project models the aggregation core of a RevOps analysis of a sales
opportunities table and of the validator that recomputes it.

Each opportunity is a row with an ID, product, customer, annual contract
value (ACV), status (`Open`, `Won`, `Lost`, or any other text) and a close
date and a start date. The analysis script `04_Scripts/test.py` computes five
things:

- it extracts the columns into arrays (Section 1);
- it lists the open deals whose close date lies in 2025, the overdue deals (Section 2);
- it totals the ACV of won deals starting in 2026 (Section 3);
- it forecasts the ACV starting in March 2026: won deals count fully, open deals at 25 % (Section 4);
- it groups the deals closed in 2025 (won or lost) by close month, computes monthly win rates, a first-half/second-half trend, the best and worst month, an annual rate and a recommendation (Section 5).

The validator class `DataValidator` in `validation.py` does three things:

- it checks the table's integrity: expected columns, status values, the close-date range;
- it recomputes every section with column masks;
- it summarises the run as passed or failed.

## Layout

- `wrappers.dfy`, module `Wrappers`: `Option` and `Result`.
- `seqs.dfy`, module `Seqs`: order-preserving `Filter`, boolean masks with `Select`, `Distinct`, sums. Also lemmas relating masks to filters.
- `opportunity.dfy`, module `Opportunity`: rows, statuses and the row predicates the sections share. Also the script's column extraction.
- `reports.dfy`, module `Reports`: reference definitions of Sections 2–4 as filters over the rows.
- `winrate.dfy`, module `WinRate`: the Section 5 grouping, rates, trend, extremes and summary. The summary comes twice: as the script runs it, and as evidently intended.
- `script.dfy`, module `Script`: the script's loops as methods, proved equal to the reference definitions.
- `validation.dfy`, module `Validation`: the validator's checks and the comprehensive run.
- `agreement.dfy`, module `Agreement`: the validator's independent recomputation agrees with the script's loops.
- `findings.dfy`, module `Findings`: the inputs on which the script's Section 5 summary stops.

Reading the spreadsheet and parsing dates are not modelled. Rows arrive typed, and each date is a year and a month. Amounts are exact reals. Every printed line is left out; the model returns the values that would be printed.

## Model

| member | source | states |
|---|---|---|
| Opportunity.LabelRoundTrip | 04_Scripts/test.py:37 | a status read from its text gives that text back; the three known statuses read back as themselves |
| Opportunity.Extract | 04_Scripts/test.py:33-39 | the seven extracted arrays all have the table's length, and zipping them back gives the rows |
| Script.OverdueDeals | 04_Scripts/test.py:70-81 | the loop collects, in row order, the IDs of exactly the open deals closing in 2025, and counts them |
| Reports.OverdueIdsExact | 04_Scripts/test.py:79-80 | an ID is listed iff some row with that ID is open and closes in 2025 |
| Reports.OverdueIdsInRowOrder | 04_Scripts/test.py:73-80 | the list for a concatenation is the concatenation of the lists; one row contributes its ID iff it is overdue |
| Script.ConfirmedRevenue | 04_Scripts/test.py:105-115 | the running total equals the summed ACV of the won deals starting in 2026 |
| Reports.WonAcv2026Properties | 04_Scripts/test.py:108-115 | the total is additive over concatenation, zero without a qualifying deal, and non-negative for non-negative ACVs |
| Script.MarchForecast | 04_Scripts/test.py:139-162 | the two loops give the forecast: each won March-2026 deal at full ACV plus each open one at a quarter; they also count both kinds |
| Script.WonPhase | 04_Scripts/test.py:145-151 | the first loop totals the ACV of won March-2026 deals and counts them |
| Script.OpenPhase | 04_Scripts/test.py:155-162 | the second loop adds a quarter of the open March-2026 ACV to its starting total and counts those deals |
| Reports.Contribution | 04_Scripts/test.py:149-161 | a row contributes nothing unless it starts in March 2026 and is won or open; a non-negative ACV contributes between 0 and itself |
| Reports.Forecast | 04_Scripts/test.py:145-162 | with non-negative ACVs the forecast lies between 0 and the summed ACV of all rows |
| Reports.ForecastSplit | 04_Scripts/test.py:149-161 | the per-row forecast equals won ACV plus the 0.25 weight times open ACV |
| Reports.ForecastIgnores | 04_Scripts/test.py:149-159 | a row that does not start in March 2026, or is neither won nor open, leaves the forecast unchanged |
| Reports.ForecastExample | 04_Scripts/test.py:149-161 | a won deal of 100, an open deal of 200 and a lost deal of 50, all starting in March 2026, forecast 150 |
| Script.RecordDeal | 04_Scripts/test.py:198-210 | one row updates the grouping by the reference step; a closed deal's month is appended to the key order exactly when it is new |
| Script.MonthlyPerformance | 04_Scripts/test.py:190-210 | the loop builds exactly the reference grouping, with one bucket of wins and closed deals per populated month; its key order is the order of first appearance and lists exactly those months |
| Script.GroupedSnoc | 04_Scripts/test.py:198-210 | grouping a sequence with one more row is grouping the prefix, then applying the step |
| WinRate.Grouped | 04_Scripts/test.py:190-210 | a month is a key iff it lies in 1..12 and some deal closed in it in 2025; its bucket holds the wins and the closed deals of that month, wins never exceeding deals |
| WinRate.KeyOrder | 04_Scripts/test.py:198-203 | the key order lists exactly the populated months, each once |
| WinRate.KeyOrderIsFirstAppearance | 04_Scripts/test.py:198-203 | of two months in the key order, the earlier one has a closed deal in a row before any row closing in the later one |
| WinRate.WonAtMostClosed | 04_Scripts/test.py:206-210 | no month has more wins than closed deals |
| WinRate.KeyOrderListsGrouped | 04_Scripts/test.py:202-203 | the months in first-appearance order are exactly the months of the grouping |
| WinRate.Rate | 04_Scripts/test.py:219 | a month's rate lies between 0 and 100; it is 0 iff nothing was won and 100 iff everything was won |
| WinRate.RateExample | 04_Scripts/test.py:219 | 3 wins of 5 closed deals is a rate of 60 |
| WinRate.SortedMonths | 04_Scripts/test.py:226 | the months in ascending order, each exactly once |
| WinRate.HalvesPartition | 04_Scripts/test.py:231-232 | months up to June and months after June split the month list, with no overlap |
| WinRate.TrendOf | 04_Scripts/test.py:235-238 | the trend is defined iff both halves have a rate; the first average is the mean of the rates of the months up to June and the second the mean of those from July; both are percentages, and the trend is the second minus the first, between -100 and 100 |
| WinRate.HalfRatesOfHalf | 04_Scripts/test.py:231-232 | a half's rate list holds exactly the rates of that half's populated months |
| WinRate.HalfAveragesBounded | 04_Scripts/test.py:235-238 | each half-year average lies within the bounds of that half's monthly rates |
| WinRate.TrendSign | 04_Scripts/test.py:238-263 | when no first-half rate exceeds some x and every second-half rate reaches it, the trend is non-negative and reads "Improving"; in the opposite case it is at most 0 |
| WinRate.TrendDefinedIff | 04_Scripts/test.py:235 | the trend is defined iff both half-years have a populated month |
| WinRate.BestAt | 04_Scripts/test.py:252-253 | the best month's rate bounds every month's rate; no earlier month in dictionary order attains it |
| WinRate.WorstAt | 04_Scripts/test.py:254-255 | the worst month's rate is below or equal to every month's rate; no earlier month in dictionary order attains it |
| WinRate.SumsBounded | 04_Scripts/test.py:266-267 | summed wins never exceed summed closed deals, which are at least the number of months |
| WinRate.DirectionOf | 04_Scripts/test.py:263 | the trend reads "Declining" iff the change is negative; a zero change reads "Improving" |
| WinRate.RecommendationFor | 04_Scripts/test.py:272-281 | "stable" iff the change is within 2 points either way; "review" only with a declining direction and "replicate" only with an improving one |
| WinRate.RecommendationConsistent | 04_Scripts/test.py:272-281 | the advice is monotone in the change: when a change is advised "replicate" so is every larger one, and when it is advised "review" so is every smaller one |
| WinRate.SummariseAsWritten | 04_Scripts/test.py:226-281 | the script's summary fails iff no month is populated or the trend is undefined, at `max` when no month is populated; when it gets through it has an outlook and extremes, with wins ≤ deals |
| WinRate.Summarise | 04_Scripts/test.py:226-281 | the corrected summary has extremes iff some month is populated and an outlook iff the trend is defined |
| WinRate.SummaryExtremes | 04_Scripts/test.py:251-262 | the corrected summary reports a best and a worst month iff a month is populated; they are months of the grouping with their own rates, they bound every rate, and each is the first such month in order |
| WinRate.SummaryTotals | 04_Scripts/test.py:266-268 | the corrected summary has wins ≤ deals, no deals iff no month is populated, and an annual rate that is a percentage |
| WinRate.SummaryMonths | 04_Scripts/test.py:226-228 | the corrected summary lists exactly the populated months, ascending, each with its own rate |
| WinRate.SummaryOutlook | 04_Scripts/test.py:235-281 | the corrected summary has an outlook iff the trend is defined; it carries that trend, its direction is Declining iff the change is negative, its recommendation is the advice for that change, and the advice agrees with the direction |
| Agreement.AnnualRatePooled | 04_Scripts/test.py:266-268 | the summary's totals are the number of deals closed in 2025 and of the won ones among them, and its annual rate is their ratio in percent (0 without closed deals) |
| WinRate.AnnualRateNotMeanOfMonths | 04_Scripts/test.py:266-268 | one of one deal won in January and none of three in July: monthly rates 100 and 0 average to 50, while the annual rate is 25 |
| Findings.AsWrittenStopsIff | 04_Scripts/test.py:235-268 | the script's summary stops iff no month is populated or the trend is undefined; with no month it stops at `max`; when it gets through it equals the corrected summary |
| Findings.TrendUnboundWhenHalfEmpty | 04_Scripts/test.py:235-263 | closed deals confined to one half-year make the script stop on the unassigned trend, and the corrected summary has no outlook |
| Findings.MaxOfEmptyWithoutClosedDeals | 04_Scripts/test.py:252-255 | without deals closed in 2025 the script stops at `max`; the corrected summary has no extremes, no outlook, no deals and a rate of 0 |
| Validation.MissingColumns | validation.py:49-52 | a column is reported missing iff it is expected and absent; nothing is missing iff all expected columns are present |
| Validation.MissingInExpectedOrder | validation.py:49-52 | the missing columns appear in the order the expected columns are declared |
| Validation.StatusValues | validation.py:68-70 | the distinct status texts, each occurring in the table; empty without a Status column |
| Validation.StatusValuesInRowOrder | validation.py:68-70 | the distinct status texts are a subsequence of the rows' labels in first-appearance order: of two listed values, the earlier labels a row before any row the later labels |
| Validation.UnexpectedStatuses | validation.py:71-72 | a status is unexpected iff it occurs and is not Won, Lost or Open; the unexpected ones keep the order of the values and, like them, have no repetitions |
| Validation.ValidateIntegrity | validation.py:29-88 | the record count, the column check iff all expected columns are present, the missing columns exactly as `MissingColumns` lists them (each once, in declared order), the status values, and the unexpected ones exactly as `UnexpectedStatuses` lists them; the date range is valid iff the close-date column exists and the table has rows |
| Validation.UnexpectedMembers | validation.py:67-76 | on parsed rows, a text is an unexpected status iff some row has the `Other` status with that text |
| Validation.UnexpectedAreOther | validation.py:67-76 | the unexpected statuses are exactly the texts of rows whose status is none of the three |
| Validation.ArrayChecksPassIffAligned | validation.py:110-117 | every array check passes iff all seven arrays have the table's length |
| Validation.ValidateSection1 | validation.py:90-124 | extraction fails iff an expected column is missing, naming a missing one; otherwise every check passes |
| Validation.ValidateSection2 | validation.py:126-161 | the count is the number of listed IDs, at most the number of rows |
| Agreement.Section2Agrees | validation.py:133-136 | the mask recomputation lists the script's overdue IDs and counts them |
| Validation.AverageDealSize | validation.py:179-187 | the average is 0 without deals, and otherwise times the count gives the total |
| Validation.ValidateSection3 | validation.py:163-192 | no deals means no ACV; the count is at most the number of rows; the average follows the total and the count |
| Agreement.Section3Agrees | validation.py:170-174 | the mask recomputation gives the script's 2026 won ACV and the number of those deals |
| Validation.ValidateSection4 | validation.py:194-229 | the total is won plus weighted open ACV; the open part is a quarter of the open ACV; the counts fit in the table |
| Validation.MarchDealsDisjoint | validation.py:204-211 | the won and the open March-2026 deals together number at most the rows of the table |
| Agreement.Section4Agrees | validation.py:200-213 | the recomputed total, won ACV and counts equal the script's forecast and counts |
| Validation.StatOf | validation.py:245-252 | a month's statistics count its deals and, among them, the Won ones, wins ≤ deals, and its rate is the bucket rate |
| Validation.OverallRate | validation.py:257 | the overall rate is 0 without closed deals, and otherwise the rate of wins over closed deals |
| Validation.ValidateSection5 | validation.py:231-287 | wins ≤ deals ≤ rows; the overall rate is a percentage; no deals iff no monthly statistics; a trend needs six populated months; the counts are those of the closed and won 2025 deals |
| Validation.MonthlyStats | validation.py:242-252 | a month 1..12 has statistics iff some closed deal falls in it; each has at least one deal, no more wins than deals and a rate between 0 and 100 |
| Validation.StatsTrend | validation.py:264-273 | a trend is reported only when at least six months have statistics, and then it is the half-year trend of their rates |
| Validation.ClosedHaveStats | validation.py:242-252 | no closed deals iff no month has statistics |
| Agreement.ClosedSelection | validation.py:237-239 | the year mask combined with the status mask selects exactly the deals closed in 2025 |
| Agreement.MonthDealsAgree | validation.py:244-246 | a month's deals and wins in the validator are the script's per-month filters |
| Agreement.StatsAgree | validation.py:242-252 | the validator's monthly statistics have the script's months, counts and rates |
| Agreement.TotalsAgree | validation.py:255-257 | the script's summed deals and wins equal the validator's totals, and the script's annual rate equals the validator's overall rate |
| Agreement.TrendAgrees | validation.py:264-273 | the validator's trend is the script's trend when at least six months are populated, and absent otherwise |
| Validation.DefaultedPass | validation.py:319 | a section fails only when both flags are present and false |
| Validation.Verdicts | validation.py:311-325 | six summary lines labelled data integrity, then Sections 1 to 5, in the order the results were recorded: the integrity line passes iff the column check and the type check pass, Section 1 iff every array check passes, and Sections 2 to 5 always pass because each result lacks one of the two flags |
| Validation.RunComprehensive | validation.py:289-333 | the run aborts iff an expected column is missing, after recording the integrity report; otherwise it records every section and passes iff every summary line passes |
| Validation.AbortsAtFirstMissing | validation.py:100-108 | the abort names the first missing column in extraction order |
| Validation.CompletedRunPasses | validation.py:306-325 | a sheet with every expected column completes the run and passes it, since only the column check and array extraction can fail; as the run aborts otherwise, every completed run passes |
| Agreement.ValidationConfirmsScript | validation.py:289-333 | with all columns present the run completes and passes, and it reproduces the script's overdue IDs, won ACV, forecast and monthly rates |

Ties for the best or worst month go to the first maximum (or minimum) in
dictionary insertion order, which is the order in which months first appear
among the rows; the model follows the code (`WinRate.KeyOrder`,
`WinRate.KeyOrderIsFirstAppearance`, `WinRate.SummaryExtremes`).

The script reports a trend whenever both half-years have a populated month,
while the validator also asks for six populated months
(`Validation.StatsTrend`); with only January and July populated the script
has a trend and the validator has none. `Agreement.TrendAgrees` states the
validator's trend is the script's when six or more months are populated and absent otherwise.

## Left out

- Reading the Excel file and converting dates are left out. Rows arrive typed, and dates are a year and a month, which is all the core reads.
- Console output is left out: every `print`, the status icons and the number formatting.
- Floating point is left out. ACVs and rates are exact reals, so the rates and averages are exact quotients.
- ID values are modelled as integers.
- The validator's null counts are left out. Typed rows have no missing values.
- The minimum and maximum close date are left out, because they are only printed. The model keeps the `date_range_valid` flag: it is false without a CloseDate column or on an empty table, where the minimum has no date to format.
- The "truly overdue" count against today's date (validation.py:149-153) is left out. It reads the clock and is only printed.
- The `except` branch of the comprehensive run keeps the missing column name. The source keeps the text of the `KeyError`.
- Validation.ValidateSection5: the trend is kept only as an `Option` of the half-year averages. The source prints it and does not return it.
- WinRate.BestAt: it compares rates in percent. The script compares `won/total` before multiplying by 100, which gives the same order.
- Opportunity.Extract: the script's `KeyError` when the sheet lacks one of the seven columns (04_Scripts/test.py:33-39) is not modelled, because the script side takes typed rows that always have every field. The missing-column path is modelled only for the validator (`Validation.ValidateSection1`, `Validation.RunComprehensive`).
- Status values are not restricted to the parsed ones. A row whose status is `Other("Open")` is not open for the script's predicates but reads as "Open" in the validator's label check. Rows built by `ParseStatus` never hold such a value, and `Validation.UnexpectedAreOther` assumes them (`Validation.Parsed`).
- The Section 4 weight is the constant 0.25, as in both sources. It is not a parameter.
- `run_validation.py`, `quick_validation` and `validate_specific_calculation` are left out. They are drivers around the validator, not part of the core.

## Findings

| source | as written | input that shows it | evidently intended | confidence | as-written member | corrected member |
|---|---|---|---|---|---|---|
| 04_Scripts/test.py:235-263 | `trend` is assigned only when both half-years have data, but line 263 and lines 272-281 read it unconditionally | deals closed in 2025 only between January and June: `NameError` | report the trend and recommendation only when it is defined | high, not executed | Findings.TrendUnboundWhenHalfEmpty | WinRate.SummaryOutlook |
| 04_Scripts/test.py:252-268 | `max`/`min` over the month keys and `total_won / total_deals` run with no closed 2025 deal | no deal closed (Won or Lost) in 2025: `ValueError` from `max` | no best/worst month and an annual rate of 0, as the validator does (validation.py:257) | high, not executed | Findings.MaxOfEmptyWithoutClosedDeals | WinRate.SummaryExtremes |

=== FILE: agreement.dfy ===
/** The validator's mask-based recomputation agrees with the reference
    definitions, and so (through the contracts of the script's loops) with
    the analysis script's own results. */
module Agreement {
  import opened Wrappers
  import opened Seqs
  import opened Opportunity
  import opened Reports
  import opened WinRate
  import opened Validation

  /** Section 2: the validator's overdue ids are the script's, in the same
      order. */
  lemma Section2Agrees(rows: seq<Row>)
    ensures ValidateSection2(rows).expectedIds == OverdueIds(rows)
    ensures ValidateSection2(rows).expectedCount == |Filter(rows, IsOverdue)|
  {
    SelectAndIsFilter(rows, HasOpenStatus, ClosesInOverdueYear, IsOverdue);
  }

  /** Section 3: the validator's total is the script's confirmed revenue,
      and its deal count is the number of Won deals starting in 2026. */
  lemma Section3Agrees(rows: seq<Row>)
    ensures ValidateSection3(rows).expectedAcv == WonAcv2026(rows)
    ensures ValidateSection3(rows).dealCount == |Filter(rows, IsWonIn2026)|
  {
    SelectAndIsFilter(rows, HasWonStatus, StartsIn2026, IsWonIn2026);
  }

  /** Section 4: weighting the summed open ACV once gives the same forecast
      as the script's weighting of each open deal, and the counts match the
      script's counters. */
  lemma Section4Agrees(rows: seq<Row>)
    ensures ValidateSection4(rows).totalExpected == Forecast(rows)
    ensures ValidateSection4(rows).wonAcv == WonMarchAcv(rows)
    ensures ValidateSection4(rows).wonCount == |Filter(rows, IsWonInForecastMonth)|
    ensures ValidateSection4(rows).openCount == |Filter(rows, IsOpenInForecastMonth)|
  {
    SelectAndIsFilter(rows, StartsInForecastMonth, HasWonStatus, IsWonInForecastMonth);
    SelectAndIsFilter(rows, StartsInForecastMonth, HasOpenStatus, IsOpenInForecastMonth);
    ForecastSplit(rows);
  }

  /** The deals Section 5 of the validator works on are the 2025 closed
      deals. */
  lemma ClosedSelection(rows: seq<Row>)
    ensures Select(rows, And(MaskOf(rows, ClosesInWinRateYear), MaskOf(rows, HasTerminalStatus))) == Filter(rows, IsClosedIn2025)
  {
    SelectAndIsFilter(rows, ClosesInWinRateYear, HasTerminalStatus, IsClosedIn2025);
  }

  /** One month's deals and wins, as the validator selects them from the
      2025 closed deals, are the month's deals and wins of the script. */
  lemma MonthDealsAgree(rows: seq<Row>, m: int)
    ensures Filter(Filter(rows, IsClosedIn2025), CloseMonthIs(m)) == Filter(rows, ClosedInMonth(m))
    ensures Filter(Filter(Filter(rows, IsClosedIn2025), CloseMonthIs(m)), HasWonStatus) == Filter(rows, WonInMonth(m))
  {
    FilterFilter(rows, IsClosedIn2025, CloseMonthIs(m), ClosedInMonth(m));
    FilterFilter(rows, ClosedInMonth(m), HasWonStatus, WonInMonth(m));
  }

  /** One month of Section 5: the validator has statistics for the month
      exactly when the script has a bucket for it, with the same counts and
      the bucket's win rate. */
  lemma StatAgrees(rows: seq<Row>, m: int)
    ensures m in MonthlyStats(Filter(rows, IsClosedIn2025)) <==> m in Grouped(rows)
    ensures m in Grouped(rows) ==>
      var stat := MonthlyStats(Filter(rows, IsClosedIn2025))[m];
      stat.total == Grouped(rows)[m].total && stat.won == Grouped(rows)[m].won && stat.winRate == Rate(Grouped(rows)[m])
  {
    MonthDealsAgree(rows, m);
  }

  /** Section 5: the validator has statistics for exactly the months the
      script groups, with the same counts, and its win rates form the
      script's rate table. */
  lemma StatsAgree(rows: seq<Row>)
    ensures MonthlyStats(Filter(rows, IsClosedIn2025)).Keys == Grouped(rows).Keys
    ensures forall m :: m in Grouped(rows) ==>
      MonthlyStats(Filter(rows, IsClosedIn2025))[m].total == Grouped(rows)[m].total &&
      MonthlyStats(Filter(rows, IsClosedIn2025))[m].won == Grouped(rows)[m].won
    ensures StatRates(MonthlyStats(Filter(rows, IsClosedIn2025))) == RateTable(Grouped(rows))
  {
    var stats := MonthlyStats(Filter(rows, IsClosedIn2025));
    var perf := Grouped(rows);
    forall m
      ensures m in stats <==> m in perf
      ensures m in perf ==> stats[m].total == perf[m].total && stats[m].won == perf[m].won
    {
      StatAgrees(rows, m);
    }
    RatesAgree(rows);
  }

  /** The validator's win rates are the script's rate table. */
  lemma RatesAgree(rows: seq<Row>)
    ensures StatRates(MonthlyStats(Filter(rows, IsClosedIn2025))) == RateTable(Grouped(rows))
  {
    var stats := MonthlyStats(Filter(rows, IsClosedIn2025));
    var perf := Grouped(rows);
    var rates := StatRates(stats);
    var table := RateTable(perf);
    forall m
      ensures m in rates <==> m in table
      ensures m in rates ==> rates[m] == table[m]
    {
      StatAgrees(rows, m);
      assert m in rates <==> m in stats;
      assert m in table <==> m in perf;
      if m in rates {
        assert rates[m] == stats[m].winRate;
        assert table[m] == Rate(perf[m]);
      }
    }
  }

  /** The closed deals of months `m` to 12. */
  function ClosedFrom(rows: seq<Row>, m: int): nat
    requires 1 <= m <= 13
    decreases 13 - m
  {
    if m == 13 then 0 else ClosedCount(rows, m) + ClosedFrom(rows, m + 1)
  }

  /** The won deals of months `m` to 12. */
  function WonFrom(rows: seq<Row>, m: int): nat
    requires 1 <= m <= 13
    decreases 13 - m
  {
    if m == 13 then 0 else WonCount(rows, m) + WonFrom(rows, m + 1)
  }

  /** Summing the buckets of a month followed by more months. */
  lemma {:induction false} SumsCons(perf: map<int, Bucket>, m: int, rest: seq<int>)
    requires m in perf
    requires forall i :: 0 <= i < |rest| ==> rest[i] in perf
    ensures SumTotal(perf, [m] + rest) == perf[m].total + SumTotal(perf, rest)
    ensures SumWon(perf, [m] + rest) == perf[m].won + SumWon(perf, rest)
    decreases |rest|
  {
    if |rest| > 0 {
      var init := rest[..|rest| - 1];
      SumsCons(perf, m, init);
      assert ([m] + rest)[..|rest|] == [m] + init;
    } else {
      assert [m] + rest == [m];
      assert [m][..0] == [];
    }
  }

  /** Summing over the months from `m` on adds month `m`'s bucket, if it
      has one, to the sums over the months after it. */
  lemma SumsStep(perf: map<int, Bucket>, m: int, rest: seq<int>)
    requires 1 <= m <= 12 && rest == MonthsFrom(perf.Keys, m + 1)
    ensures SumTotal(perf, MonthsFrom(perf.Keys, m)) == (if m in perf then perf[m].total else 0) + SumTotal(perf, rest)
    ensures SumWon(perf, MonthsFrom(perf.Keys, m)) == (if m in perf then perf[m].won else 0) + SumWon(perf, rest)
  {
    if m in perf {
      assert MonthsFrom(perf.Keys, m) == [m] + rest;
      SumsCons(perf, m, rest);
    }
  }

  /** Summing the grouped buckets over the populated months from `m` on
      counts every closed (and every won) deal of those months. */
  lemma {:induction false} SumsFrom(rows: seq<Row>, m: int)
    requires 1 <= m <= 13
    ensures SumTotal(Grouped(rows), MonthsFrom(Grouped(rows).Keys, m)) == ClosedFrom(rows, m)
    ensures SumWon(Grouped(rows), MonthsFrom(Grouped(rows).Keys, m)) == WonFrom(rows, m)
    decreases 13 - m
  {
    var perf := Grouped(rows);
    if m < 13 {
      SumsFrom(rows, m + 1);
      SumsStep(perf, m, MonthsFrom(perf.Keys, m + 1));
      WonAtMostClosedAt(rows, m);
      if m in perf {
        assert perf[m] == Bucket(WonCount(rows, m), ClosedCount(rows, m));
      } else {
        assert ClosedCount(rows, m) == 0;
      }
    }
  }

  /** One more row adds one to the closed deals of months `m` to 12
      exactly when it is a 2025 closed deal of such a month. */
  lemma {:induction false} ClosedFromSnoc(init: seq<Row>, r: Row, m: int)
    requires 1 <= m <= 13
    ensures ClosedFrom(init + [r], m) == ClosedFrom(init, m) + (if IsClosedIn2025(r) && m <= r.close.month then 1 else 0)
    decreases 13 - m
  {
    if m < 13 {
      ClosedFromSnoc(init, r, m + 1);
      CountsSnocAt(init, r, m);
    }
  }

  /** One more row adds one to the won deals of months `m` to 12 exactly
      when it is a 2025 won deal of such a month. */
  lemma {:induction false} WonFromSnoc(init: seq<Row>, r: Row, m: int)
    requires 1 <= m <= 13
    ensures WonFrom(init + [r], m) == WonFrom(init, m) + (if IsWonClosedIn2025(r) && m <= r.close.month then 1 else 0)
    decreases 13 - m
  {
    if m < 13 {
      WonFromSnoc(init, r, m + 1);
      CountsSnocAt(init, r, m);
    }
  }

  /** Over all twelve months, the closed and won counts add up to the
      number of 2025 closed and won deals. */
  lemma {:induction false} FromAll(rows: seq<Row>)
    ensures ClosedFrom(rows, 1) == |Filter(rows, IsClosedIn2025)|
    ensures WonFrom(rows, 1) == |Filter(rows, IsWonClosedIn2025)|
    decreases |rows|
  {
    if |rows| == 0 {
      AllFromEmpty(1);
    } else {
      var init, r := rows[..|rows| - 1], rows[|rows| - 1];
      assert rows == init + [r];
      FromAll(init);
      ClosedFromSnoc(init, r, 1);
      WonFromSnoc(init, r, 1);
      FilterSnoc(init, r, IsClosedIn2025);
      FilterSnoc(init, r, IsWonClosedIn2025);
    }
  }

  /** Without rows every month count is zero. */
  lemma {:induction false} AllFromEmpty(m: int)
    requires 1 <= m <= 13
    ensures ClosedFrom([], m) == 0 && WonFrom([], m) == 0
    decreases 13 - m
  {
    if m < 13 {
      AllFromEmpty(m + 1);
    }
  }

  /** The script's annual totals (sums of the monthly buckets) are the
      validator's totals (counts of the selected deals), so the annual win
      rate of the corrected summary is the validator's overall win rate. */
  lemma TotalsAgree(rows: seq<Row>)
    ensures SumTotal(Grouped(rows), SortedMonths(Grouped(rows).Keys)) == ValidateSection5(rows).totalDeals
    ensures SumWon(Grouped(rows), SortedMonths(Grouped(rows).Keys)) == ValidateSection5(rows).totalWon
    ensures ListsKeys(Grouped(rows), KeyOrder(rows))
    ensures Summarise(Grouped(rows), KeyOrder(rows)).annualRate == ValidateSection5(rows).overallWinRate
  {
    KeyOrderListsGrouped(rows);
    SumsFrom(rows, 1);
    FromAll(rows);
  }

  /** The annual win rate pools the deals of the whole year: the corrected
      summary's totals count the deals closed in 2025 and the won ones among
      them, and its annual rate is their ratio, not an average of monthly
      rates. */
  lemma AnnualRatePooled(rows: seq<Row>)
    ensures ListsKeys(Grouped(rows), KeyOrder(rows))
    ensures var s := Summarise(Grouped(rows), KeyOrder(rows));
      && s.totalDeals == |Filter(rows, IsClosedIn2025)|
      && s.totalWon == |Filter(rows, IsWonClosedIn2025)|
      && s.annualRate == OverallRate(|Filter(rows, IsWonClosedIn2025)|, |Filter(rows, IsClosedIn2025)|)
  {
    TotalsAgree(rows);
  }

  /** The validator prints a trend exactly when the script would and at
      least six months are populated; it is then the script's trend. */
  lemma TrendAgrees(rows: seq<Row>)
    ensures ValidateSection5(rows).trend ==
      if |Grouped(rows)| >= MinTrendMonths then TrendOf(RateTable(Grouped(rows))) else None
  {
    StatsAgree(rows);
    var stats := ValidateSection5(rows).monthlyStats;
    var perf := Grouped(rows);
    assert |stats| == |stats.Keys| == |perf.Keys| == |perf|;
    assert StatRates(stats) == RateTable(perf);
  }

  /** For a sheet with every expected column, the comprehensive run
      completes, reports that all validations passed, and confirms the
      script's results section by section. */
  lemma ValidationConfirmsScript(t: Table)
    requires forall c :: c in ExpectedColumns ==> c in t.columns
    ensures RunComprehensive(t).Completed?
    ensures RunComprehensive(t).allPassed
    ensures RunComprehensive(t).section2.expectedIds == OverdueIds(t.rows)
    ensures RunComprehensive(t).section3.expectedAcv == WonAcv2026(t.rows)
    ensures RunComprehensive(t).section4.totalExpected == Forecast(t.rows)
    ensures StatRates(RunComprehensive(t).section5.monthlyStats) == RateTable(Grouped(t.rows))
  {
    CompletedRunPasses(t);
    Section2Agrees(t.rows);
    Section3Agrees(t.rows);
    Section4Agrees(t.rows);
    StatsAgree(t.rows);
  }
}

=== FILE: findings.dfy ===
/** The two ways the analysis script's Section 5 summary stops, stated on the
    grouping it builds from the deals: without any deal closed in 2025 the
    best-month `max` has nothing to choose from, and with closed deals in
    one half-year only the trend is read although it was never computed.
    Whenever the script gets through, its summary is the corrected one. */
module Findings {
  import opened Wrappers
  import opened Seqs
  import opened Opportunity
  import opened WinRate

  /** A month is a key of the grouping exactly when some deal closed in
      that month of 2025. */
  lemma PopulatedIff(rows: seq<Row>, m: int)
    ensures m in Grouped(rows) <==> exists r :: r in rows && IsClosedIn2025(r) && r.close.month == m
  {
    var closed := Filter(rows, ClosedInMonth(m));
    FilterMembers(rows, ClosedInMonth(m));
    if |closed| > 0 {
      assert closed[0] in closed;
    }
  }

  /** The script stops exactly when there is no month to rank or no trend;
      the empty grouping stops it at `max`; otherwise it reports the
      corrected summary. */
  lemma AsWrittenStopsIff(perf: map<int, Bucket>, order: seq<int>)
    requires WellFormed(perf) && ListsKeys(perf, order)
    ensures SummariseAsWritten(perf, order).Failure? <==> perf == map[] || TrendOf(RateTable(perf)).None?
    ensures perf == map[] ==> SummariseAsWritten(perf, order) == Failure(MaxOfEmptySequence)
    ensures SummariseAsWritten(perf, order).Success? ==> SummariseAsWritten(perf, order).value == Summarise(perf, order)
  {
    if |order| == 0 {
      assert perf == map[];
    }
    if |order| > 0 {
      assert order[0] in perf;
      var months := SortedMonths(perf.Keys);
      assert order[0] in months;
      SumsBounded(perf, months);
    }
  }

  /** Deals closed in 2025, all of them in one half of the year: the script
      stops on the unassigned trend, while the corrected summary reports no
      trend. */
  lemma TrendUnboundWhenHalfEmpty(rows: seq<Row>)
    requires exists r :: r in rows && IsClosedIn2025(r)
    requires (forall r :: r in rows && IsClosedIn2025(r) ==> InFirstHalf(r.close.month)) ||
             (forall r :: r in rows && IsClosedIn2025(r) ==> InSecondHalf(r.close.month))
    ensures ListsKeys(Grouped(rows), KeyOrder(rows))
    ensures SummariseAsWritten(Grouped(rows), KeyOrder(rows)) == Failure(TrendUnbound)
    ensures Summarise(Grouped(rows), KeyOrder(rows)).outlook == None
  {
    var perf := Grouped(rows);
    var rates := RateTable(perf);
    KeyOrderListsGrouped(rows);
    var r :| r in rows && IsClosedIn2025(r);
    PopulatedIff(rows, r.close.month);
    assert r.close.month in rates;
    forall m | m in rates
      ensures exists x :: x in rows && IsClosedIn2025(x) && x.close.month == m
    {
      PopulatedIff(rows, m);
    }
    TrendDefinedIff(rates);
    assert perf != map[];
    AsWrittenStopsIff(perf, KeyOrder(rows));
  }

  /** No deal closed in 2025: the script stops at `max`, while the corrected
      summary has no extremes, no trend, no deals and an annual rate of 0. */
  lemma MaxOfEmptyWithoutClosedDeals(rows: seq<Row>)
    requires forall r :: r in rows ==> !IsClosedIn2025(r)
    ensures ListsKeys(Grouped(rows), KeyOrder(rows))
    ensures SummariseAsWritten(Grouped(rows), KeyOrder(rows)) == Failure(MaxOfEmptySequence)
    ensures Summarise(Grouped(rows), KeyOrder(rows)).extremes == None
    ensures Summarise(Grouped(rows), KeyOrder(rows)).outlook == None
    ensures Summarise(Grouped(rows), KeyOrder(rows)).totalDeals == 0
    ensures Summarise(Grouped(rows), KeyOrder(rows)).annualRate == 0.0
  {
    var perf := Grouped(rows);
    forall m
      ensures m !in perf
    {
      PopulatedIff(rows, m);
    }
    assert perf == map[];
    var order := KeyOrder(rows);
    TrendDefinedIff(RateTable(perf));
    KeyOrderListsGrouped(rows);
    AsWrittenStopsIff(perf, order);
  }
}

=== FILE: opportunity.dfy ===
/** The single entity of the sales pipeline, the Opportunity row, with its
    already-parsed dates, the row filters the reports use, and the
    column-per-array extraction of Section 1. */
module Opportunity {
  import opened Seqs

  /** A calendar month number, as a parsed date's `.month` yields it. */
  type Month = m: int | 1 <= m <= 12 witness 1

  /** A close or start date, reduced to the year and month the reports read. */
  datatype Date = Date(year: int, month: Month)

  /** A deal status. The spreadsheet holds free text: the three labels the
      reports test for become their own constructors, anything else is kept
      verbatim in `Other`. */
  datatype Status = Open | Won | Lost | Other(text: string)

  /** The status a spreadsheet label denotes; comparison is exact and
      case-sensitive, like `statuses[i] == 'Open'`. */
  function ParseStatus(name: string): (st: Status)
    ensures st == Open <==> name == "Open"
    ensures st == Won <==> name == "Won"
    ensures st == Lost <==> name == "Lost"
    ensures st.Other? ==> st.text == name
  {
    if name == "Open" then Open
    else if name == "Won" then Won
    else if name == "Lost" then Lost
    else Other(name)
  }

  /** The spreadsheet label of a status. */
  function Label(st: Status): string
  {
    match st
    case Open => "Open"
    case Won => "Won"
    case Lost => "Lost"
    case Other(l) => l
  }

  /** `Other` never carries one of the three known labels. */
  predicate Canonical(st: Status)
  {
    st.Other? ==> st.text != "Open" && st.text != "Won" && st.text != "Lost"
  }

  /** Parsing a label and printing it back is lossless, and every canonical
      status is the parse of its own label. */
  lemma LabelRoundTrip(name: string, st: Status)
    ensures Label(ParseStatus(name)) == name
    ensures Canonical(ParseStatus(name))
    ensures Canonical(st) ==> ParseStatus(Label(st)) == st
  {
  }

  /** One sales opportunity (a spreadsheet row). `acv` is the Annual Contract
      Value, kept as an exact real. */
  datatype Row = Row(
    id: int,
    product: string,
    customer: string,
    acv: real,
    status: Status,
    close: Date,
    start: Date)

  /** Reporting constants of the scripts. */
  const OverdueYear := 2025
  const RevenueYear := 2026
  const ForecastYear := 2026
  const ForecastMonth: Month := 3
  const OpenWeight: real := 0.25
  const WinRateYear := 2025
  /** Months up to and including this one form the first half-year. */
  const LastMonthOfFirstHalf := 6

  /** Still open, but with a close date in 2025: an overdue deal. */
  predicate IsOverdue(r: Row)
  {
    r.status == Open && r.close.year == OverdueYear
  }

  /** Won and starting in 2026: confirmed 2026 revenue. */
  predicate IsWonIn2026(r: Row)
  {
    r.status == Won && r.start.year == RevenueYear
  }

  /** Starts in the forecast month, March 2026. */
  predicate StartsInForecastMonth(r: Row)
  {
    r.start.year == ForecastYear && r.start.month == ForecastMonth
  }

  predicate HasWonStatus(r: Row)
  {
    r.status == Won
  }

  predicate HasOpenStatus(r: Row)
  {
    r.status == Open
  }

  /** Won and starting in the forecast month. */
  predicate IsWonInForecastMonth(r: Row)
  {
    StartsInForecastMonth(r) && r.status == Won
  }

  /** Open and starting in the forecast month. */
  predicate IsOpenInForecastMonth(r: Row)
  {
    StartsInForecastMonth(r) && r.status == Open
  }

  /** Reached a terminal outcome (Won or Lost) with a close date in 2025;
      only such deals enter the win-rate analysis. */
  predicate IsClosedIn2025(r: Row)
  {
    r.close.year == WinRateYear && (r.status == Won || r.status == Lost)
  }

  /** Won with a close date in 2025. */
  predicate IsWonClosedIn2025(r: Row)
  {
    r.close.year == WinRateYear && r.status == Won
  }

  /** The row filter "closed in 2025, in month `m`". */
  function ClosedInMonth(m: int): Row -> bool
  {
    (r: Row) => IsClosedIn2025(r) && r.close.month == m
  }

  /** The row filter "won, closed in 2025, in month `m`". */
  function WonInMonth(m: int): Row -> bool
  {
    (r: Row) => IsClosedIn2025(r) && r.close.month == m && r.status == Won
  }

  /** The total ACV of `rows`. */
  function SumAcv(rows: seq<Row>): real
  {
    if |rows| == 0 then 0.0 else SumAcv(rows[..|rows| - 1]) + rows[|rows| - 1].acv
  }

  /** The ACV total of a concatenation is the sum of the two totals. */
  lemma {:induction false} SumAcvAppend(a: seq<Row>, b: seq<Row>)
    ensures SumAcv(a + b) == SumAcv(a) + SumAcv(b)
    decreases |b|
  {
    if |b| == 0 {
      assert a + b == a;
    } else {
      assert (a + b)[..|a + b| - 1] == a + b[..|b| - 1];
      SumAcvAppend(a, b[..|b| - 1]);
    }
  }

  /** Filtering one more row adds its ACV to the filtered total exactly when
      it passes the filter. */
  lemma SumAcvFilterSnoc(init: seq<Row>, r: Row, p: Row -> bool)
    ensures SumAcv(Filter(init + [r], p)) == SumAcv(Filter(init, p)) + (if p(r) then r.acv else 0.0)
  {
    FilterSnoc(init, r, p);
    SumAcvAppend(Filter(init, p), if p(r) then [r] else []);
    assert SumAcv([r]) == r.acv;
  }

  /** Non-negative contract values sum to a non-negative total. */
  lemma {:induction false} SumAcvNonNegative(rows: seq<Row>)
    requires forall i :: 0 <= i < |rows| ==> rows[i].acv >= 0.0
    ensures SumAcv(rows) >= 0.0
    decreases |rows|
  {
    if |rows| > 0 {
      SumAcvNonNegative(rows[..|rows| - 1]);
    }
  }

  /** The ids of `rows`, in row order. */
  function Ids(rows: seq<Row>): (ids: seq<int>)
    ensures |ids| == |rows|
    ensures forall i :: 0 <= i < |rows| ==> ids[i] == rows[i].id
  {
    seq(|rows|, i requires 0 <= i < |rows| => rows[i].id)
  }

  /** The table split into one array per column, index-aligned. */
  datatype Columns = Columns(
    ids: seq<int>,
    products: seq<string>,
    customers: seq<string>,
    acvs: seq<real>,
    statuses: seq<Status>,
    closeDates: seq<Date>,
    startDates: seq<Date>)

  /** The length of each column array, in extraction order
      (ID, ProductName, CustomerName, ACV, Status, CloseDate, StartDate). */
  function Lengths(c: Columns): seq<nat>
  {
    [|c.ids|, |c.products|, |c.customers|, |c.acvs|, |c.statuses|, |c.closeDates|, |c.startDates|]
  }

  /** Every column array has exactly `n` entries. */
  predicate Aligned(c: Columns, n: nat)
  {
    && |c.ids| == n && |c.products| == n && |c.customers| == n && |c.acvs| == n
    && |c.statuses| == n && |c.closeDates| == n && |c.startDates| == n
  }

  /** Row `i` reassembled from entry `i` of every column. */
  function Zip(c: Columns): (rows: seq<Row>)
    requires Aligned(c, |c.ids|)
    ensures |rows| == |c.ids|
  {
    seq(|c.ids|, i requires 0 <= i < |c.ids| =>
      Row(c.ids[i], c.products[i], c.customers[i], c.acvs[i], c.statuses[i], c.closeDates[i], c.startDates[i]))
  }

  /** Section 1 of the script: each column becomes its own array. The arrays
      all have one entry per row, and zipping them back gives the table. */
  function Extract(rows: seq<Row>): (c: Columns)
    ensures Aligned(c, |rows|)
    ensures Zip(c) == rows
  {
    Columns(
      seq(|rows|, i requires 0 <= i < |rows| => rows[i].id),
      seq(|rows|, i requires 0 <= i < |rows| => rows[i].product),
      seq(|rows|, i requires 0 <= i < |rows| => rows[i].customer),
      seq(|rows|, i requires 0 <= i < |rows| => rows[i].acv),
      seq(|rows|, i requires 0 <= i < |rows| => rows[i].status),
      seq(|rows|, i requires 0 <= i < |rows| => rows[i].close),
      seq(|rows|, i requires 0 <= i < |rows| => rows[i].start))
  }
}

=== FILE: reports.dfy ===
/** Reference definitions of the three row-level reports (overdue deals,
    confirmed 2026 revenue, March 2026 weighted forecast), stated once as
    filters and sums, with the properties that characterise them. Both the
    loop-based script and the mask-based validator are proved equal to
    these definitions. */
module Reports {
  import opened Seqs
  import opened Opportunity

  /** The ids of the overdue deals (open, closing in 2025), in row order. */
  function OverdueIds(rows: seq<Row>): seq<int>
  {
    Ids(Filter(rows, IsOverdue))
  }

  /** An id is reported as overdue exactly when some row with that id is
      open and closes in 2025. */
  lemma OverdueIdsExact(rows: seq<Row>, x: int)
    ensures x in OverdueIds(rows) <==> exists i :: 0 <= i < |rows| && IsOverdue(rows[i]) && rows[i].id == x
  {
    var f := Filter(rows, IsOverdue);
    FilterMembers(rows, IsOverdue);
    if x in OverdueIds(rows) {
      var k :| 0 <= k < |f| && OverdueIds(rows)[k] == x;
      assert f[k] in rows;
      var i :| 0 <= i < |rows| && rows[i] == f[k];
    }
    if exists i :: 0 <= i < |rows| && IsOverdue(rows[i]) && rows[i].id == x {
      var i :| 0 <= i < |rows| && IsOverdue(rows[i]) && rows[i].id == x;
      assert rows[i] in f;
      var k :| 0 <= k < |f| && f[k] == rows[i];
      assert OverdueIds(rows)[k] == x;
    }
  }

  /** Row order is kept: the report on a concatenation is the report on the
      first part followed by the report on the second, and a single row
      contributes its id exactly when it is overdue. */
  lemma OverdueIdsInRowOrder(a: seq<Row>, b: seq<Row>, r: Row)
    ensures OverdueIds(a + b) == OverdueIds(a) + OverdueIds(b)
    ensures OverdueIds([r]) == if IsOverdue(r) then [r.id] else []
  {
    FilterAppend(a, b, IsOverdue);
    var fa, fb := Filter(a, IsOverdue), Filter(b, IsOverdue);
    assert Ids(fa + fb) == Ids(fa) + Ids(fb);
    FilterSnoc([], r, IsOverdue);
    assert [] + [r] == [r];
  }

  /** Confirmed 2026 revenue: the ACV total of the won deals starting in 2026. */
  function WonAcv2026(rows: seq<Row>): real
  {
    SumAcv(Filter(rows, IsWonIn2026))
  }

  /** Confirmed revenue is additive over disjoint parts of the table, is
      zero when no row is won and starting in 2026, and is non-negative when
      every ACV is. */
  lemma WonAcv2026Properties(a: seq<Row>, b: seq<Row>)
    ensures WonAcv2026(a + b) == WonAcv2026(a) + WonAcv2026(b)
    ensures (forall i :: 0 <= i < |a| ==> !IsWonIn2026(a[i])) ==> WonAcv2026(a) == 0.0
    ensures (forall i :: 0 <= i < |a| ==> a[i].acv >= 0.0) ==> WonAcv2026(a) >= 0.0
  {
    FilterAppend(a, b, IsWonIn2026);
    SumAcvAppend(Filter(a, IsWonIn2026), Filter(b, IsWonIn2026));
    var f := Filter(a, IsWonIn2026);
    if forall i :: 0 <= i < |a| ==> !IsWonIn2026(a[i]) {
      FilterNone(a, IsWonIn2026);
    }
    if forall i :: 0 <= i < |a| ==> a[i].acv >= 0.0 {
      FilterMembers(a, IsWonIn2026);
      forall i | 0 <= i < |f|
        ensures f[i].acv >= 0.0
      {
        assert f[i] in a;
      }
      SumAcvNonNegative(f);
    }
  }

  /** What one row adds to the March 2026 forecast: its full ACV when Won,
      a quarter of it when Open, nothing for Lost or any other status or
      when it does not start in March 2026. */
  function Contribution(r: Row): (c: real)
    ensures !StartsInForecastMonth(r) || (r.status != Won && r.status != Open) ==> c == 0.0
    ensures r.acv >= 0.0 ==> 0.0 <= c <= r.acv
  {
    if !StartsInForecastMonth(r) then 0.0
    else if r.status == Won then r.acv
    else if r.status == Open then OpenWeight * r.acv
    else 0.0
  }

  /** The probability-weighted forecast for March 2026, as one pass that
      weighs each row by its status. */
  function Forecast(rows: seq<Row>): (f: real)
    ensures (forall i :: 0 <= i < |rows| ==> rows[i].acv >= 0.0) ==> 0.0 <= f <= SumAcv(rows)
  {
    if |rows| == 0 then 0.0
    else Forecast(rows[..|rows| - 1]) + Contribution(rows[|rows| - 1])
  }

  /** The won ACV of the forecast month. */
  function WonMarchAcv(rows: seq<Row>): real
  {
    SumAcv(Filter(rows, IsWonInForecastMonth))
  }

  /** The open ACV of the forecast month, before weighting. */
  function OpenMarchAcv(rows: seq<Row>): real
  {
    SumAcv(Filter(rows, IsOpenInForecastMonth))
  }

  /** The forecast is the won ACV of the month plus a quarter of the open
      ACV of the month; Lost and other statuses add nothing. */
  lemma {:induction false} ForecastSplit(rows: seq<Row>)
    ensures Forecast(rows) == WonMarchAcv(rows) + OpenWeight * OpenMarchAcv(rows)
    decreases |rows|
  {
    if |rows| > 0 {
      var init := rows[..|rows| - 1];
      var r := rows[|rows| - 1];
      ForecastSplit(init);
      assert rows == init + [r];
      SumAcvFilterSnoc(init, r, IsWonInForecastMonth);
      SumAcvFilterSnoc(init, r, IsOpenInForecastMonth);
    }
  }

  /** Rows outside the month or with a status other than Won and Open do
      not change the forecast. */
  lemma ForecastIgnores(rows: seq<Row>, r: Row)
    requires !StartsInForecastMonth(r) || (r.status != Won && r.status != Open)
    ensures Forecast(rows + [r]) == Forecast(rows)
  {
    assert (rows + [r])[..|rows + [r]| - 1] == rows;
  }

  /** A won deal of 100, an open deal of 200 and a lost deal of 50, all
      starting in March 2026, forecast 100 + 0.25 * 200 = 150. */
  lemma ForecastExample()
    ensures Forecast([Row(1, "P", "C", 100.0, Won, Date(2025, 1), Date(2026, 3)),
                      Row(2, "P", "C", 200.0, Open, Date(2025, 1), Date(2026, 3)),
                      Row(3, "P", "C", 50.0, Lost, Date(2025, 1), Date(2026, 3))]) == 150.0
  {
    var rows := [Row(1, "P", "C", 100.0, Won, Date(2025, 1), Date(2026, 3)),
                 Row(2, "P", "C", 200.0, Open, Date(2025, 1), Date(2026, 3)),
                 Row(3, "P", "C", 50.0, Lost, Date(2025, 1), Date(2026, 3))];
    assert rows[..2][..1] == rows[..1];
    assert rows[..1][..0] == [];
    assert Forecast(rows[..1]) == 100.0;
    assert Forecast(rows[..2]) == 150.0;
  }
}

=== FILE: script.dfy ===
/** The analysis script, Sections 2 to 5: each report as the row-by-row
    loop the script runs, proved equal to the reference definitions. */
module Script {
  import opened Seqs
  import opened Opportunity
  import opened Reports
  import opened WinRate

  /** Section 2: collect the ids of open deals whose close date is in 2025,
      in row order; the count reported is the length of that list. */
  method OverdueDeals(rows: seq<Row>) returns (ids: seq<int>, count: nat)
    ensures ids == OverdueIds(rows)
    ensures count == |Filter(rows, IsOverdue)|
  {
    ids := [];
    for i := 0 to |rows|
      invariant ids == OverdueIds(rows[..i])
    {
      if rows[i].status == Open && rows[i].close.year == 2025 {
        ids := ids + [rows[i].id];
      }
      assert rows[..i + 1] == rows[..i] + [rows[i]];
      FilterSnoc(rows[..i], rows[i], IsOverdue);
    }
    assert rows[..|rows|] == rows;
    count := |ids|;
  }

  /** Section 3: add up the ACV of every won deal starting in 2026. */
  method ConfirmedRevenue(rows: seq<Row>) returns (total: real)
    ensures total == WonAcv2026(rows)
  {
    total := 0.0;
    for i := 0 to |rows|
      invariant total == WonAcv2026(rows[..i])
    {
      if rows[i].status == Won && rows[i].start.year == 2026 {
        total := total + rows[i].acv;
      }
      assert rows[..i + 1] == rows[..i] + [rows[i]];
      SumAcvFilterSnoc(rows[..i], rows[i], IsWonIn2026);
    }
    assert rows[..|rows|] == rows;
  }

  /** Section 4: the March 2026 forecast in two passes, first the full ACV
      of the won deals starting that month, then a quarter of the ACV of the
      open ones, counting the deals of each kind. */
  method MarchForecast(rows: seq<Row>) returns (total: real, wonDeals: nat, openDeals: nat)
    ensures total == Forecast(rows)
    ensures wonDeals == |Filter(rows, IsWonInForecastMonth)|
    ensures openDeals == |Filter(rows, IsOpenInForecastMonth)|
  {
    total, wonDeals := WonPhase(rows);
    total, openDeals := OpenPhase(rows, total);
    ForecastSplit(rows);
  }

  /** Phase 1 of Section 4: the full ACV of the won March 2026 deals. */
  method WonPhase(rows: seq<Row>) returns (total: real, wonDeals: nat)
    ensures total == WonMarchAcv(rows)
    ensures wonDeals == |Filter(rows, IsWonInForecastMonth)|
  {
    total := 0.0;
    wonDeals := 0;
    for i := 0 to |rows|
      invariant total == WonMarchAcv(rows[..i])
      invariant wonDeals == |Filter(rows[..i], IsWonInForecastMonth)|
    {
      assert rows[..i + 1] == rows[..i] + [rows[i]];
      WonMarchSnoc(rows[..i], rows[i]);
      var start := rows[i].start;
      if rows[i].status == Won && start.year == 2026 && start.month == 3 {
        total := total + rows[i].acv;
        wonDeals := wonDeals + 1;
      }
    }
    assert rows[..|rows|] == rows;
  }

  /** Phase 2 of Section 4: a quarter of the ACV of each open March 2026
      deal, added to the running total `base`. */
  method OpenPhase(rows: seq<Row>, base: real) returns (total: real, openDeals: nat)
    ensures total == base + OpenWeight * OpenMarchAcv(rows)
    ensures openDeals == |Filter(rows, IsOpenInForecastMonth)|
  {
    total := base;
    openDeals := 0;
    for i := 0 to |rows|
      invariant total == base + 0.25 * OpenMarchAcv(rows[..i])
      invariant openDeals == |Filter(rows[..i], IsOpenInForecastMonth)|
    {
      assert rows[..i + 1] == rows[..i] + [rows[i]];
      OpenMarchSnoc(rows[..i], rows[i]);
      var start := rows[i].start;
      if rows[i].status == Open && start.year == 2026 && start.month == 3 {
        total := total + rows[i].acv * 0.25;
        openDeals := openDeals + 1;
      }
    }
    assert rows[..|rows|] == rows;
  }

  /** One more row adds its ACV and one deal to the won March 2026 figures
      exactly when it is a won deal starting that month. */
  lemma WonMarchSnoc(init: seq<Row>, r: Row)
    ensures WonMarchAcv(init + [r]) == WonMarchAcv(init) + (if IsWonInForecastMonth(r) then r.acv else 0.0)
    ensures |Filter(init + [r], IsWonInForecastMonth)| == |Filter(init, IsWonInForecastMonth)| + (if IsWonInForecastMonth(r) then 1 else 0)
  {
    SumAcvFilterSnoc(init, r, IsWonInForecastMonth);
    FilterSnoc(init, r, IsWonInForecastMonth);
  }

  /** One more row adds its ACV and one deal to the open March 2026 figures
      exactly when it is an open deal starting that month. */
  lemma OpenMarchSnoc(init: seq<Row>, r: Row)
    ensures OpenMarchAcv(init + [r]) == OpenMarchAcv(init) + (if IsOpenInForecastMonth(r) then r.acv else 0.0)
    ensures |Filter(init + [r], IsOpenInForecastMonth)| == |Filter(init, IsOpenInForecastMonth)| + (if IsOpenInForecastMonth(r) then 1 else 0)
  {
    SumAcvFilterSnoc(init, r, IsOpenInForecastMonth);
    FilterSnoc(init, r, IsOpenInForecastMonth);
  }

  /** `perf` holds, for every month with a closed 2025 deal in `rows` and
      for no other, that month's won and closed counts. */
  ghost predicate Groups(perf: map<int, Bucket>, rows: seq<Row>)
  {
    (forall m :: m in perf <==> 1 <= m <= 12 && ClosedCount(rows, m) > 0) &&
    (forall m :: m in perf ==> perf[m] == BucketOf(rows, m))
  }

  /** A map that groups `rows` is the reference grouping. */
  lemma GroupsIsGrouped(perf: map<int, Bucket>, rows: seq<Row>)
    requires Groups(perf, rows)
    ensures perf == Grouped(rows)
  {
  }

  /** Grouping one more row changes only the bucket of its close month, and
      only when it closed in 2025: that bucket gains a deal, and a win when
      the row was won; a month met for the first time starts from zero. */
  lemma GroupsSnoc(perf: map<int, Bucket>, init: seq<Row>, r: Row)
    requires Groups(perf, init)
    ensures Groups(GroupStep(perf, r), init + [r])
  {
    var next := GroupStep(perf, r);
    forall k
      ensures k in next <==> 1 <= k <= 12 && ClosedCount(init + [r], k) > 0
      ensures k in next ==> next[k] == BucketOf(init + [r], k)
    {
      GroupStepAt(perf, init, r, k);
    }
  }

  /** The grouping after one more row, as the loop body builds it. */
  function GroupStep(perf: map<int, Bucket>, r: Row): map<int, Bucket>
  {
    if IsClosedIn2025(r) then
      var m := r.close.month;
      var b := if m in perf then perf[m] else Bucket(0, 0);
      perf[m := Bucket(b.won + (if r.status == Won then 1 else 0), b.total + 1)]
    else perf
  }

  /** `GroupsSnoc` for one month. */
  lemma GroupStepAt(perf: map<int, Bucket>, init: seq<Row>, r: Row, k: int)
    requires k in perf <==> 1 <= k <= 12 && ClosedCount(init, k) > 0
    requires k in perf ==> perf[k] == BucketOf(init, k)
    ensures k in GroupStep(perf, r) <==> 1 <= k <= 12 && ClosedCount(init + [r], k) > 0
    ensures k in GroupStep(perf, r) ==> GroupStep(perf, r)[k] == BucketOf(init + [r], k)
  {
    CountsSnocAt(init, r, k);
    WonAtMostClosedAt(init, k);
  }

  /** The reference grouping of one more row is one `GroupStep` on the
      reference grouping of the rows before it. */
  lemma GroupedSnoc(init: seq<Row>, r: Row)
    ensures Grouped(init + [r]) == GroupStep(Grouped(init), r)
  {
    GroupsSnoc(Grouped(init), init, r);
    GroupsIsGrouped(GroupStep(Grouped(init), r), init + [r]);
  }

  /** The body of the grouping loop for one deal: a deal closed (Won or
      Lost) in 2025 opens its month's bucket when the month is new, adds one
      deal to it, and one win when it was won; any other deal is skipped. */
  method RecordDeal(perf: map<int, Bucket>, order: seq<int>, r: Row)
    returns (perf': map<int, Bucket>, order': seq<int>)
    ensures perf' == GroupStep(perf, r)
    ensures IsClosedIn2025(r) && r.close.month !in perf ==> order' == order + [r.close.month]
    ensures !(IsClosedIn2025(r) && r.close.month !in perf) ==> order' == order
  {
    perf', order' := perf, order;
    if r.close.year == 2025 && (r.status == Won || r.status == Lost) {
      var month := r.close.month;
      if month !in perf' {
        perf' := perf'[month := Bucket(0, 0)];
        order' := order' + [month];
      }
      perf' := perf'[month := perf'[month].(total := perf'[month].total + 1)];
      if r.status == Won {
        perf' := perf'[month := perf'[month].(won := perf'[month].won + 1)];
      }
    }
  }

  /** Section 5, first part: group the deals closed (Won or Lost) in 2025
      into month buckets, creating a month's bucket when the first such deal
      of that month is met. */
  method MonthlyPerformance(rows: seq<Row>) returns (perf: map<int, Bucket>, order: seq<int>)
    ensures perf == Grouped(rows)
    ensures order == KeyOrder(rows)
    ensures WellFormed(perf) && ListsKeys(perf, order)
  {
    perf := map[];
    order := [];
    for i := 0 to |rows|
      invariant perf == Grouped(rows[..i])
      invariant order == KeyOrder(rows[..i])
    {
      var r := rows[i];
      assert rows[..i + 1] == rows[..i] + [r];
      assert (rows[..i] + [r])[..i] == rows[..i];
      GroupedSnoc(rows[..i], r);
      assert r.close.month in perf <==> r.close.month in order;
      perf, order := RecordDeal(perf, order, r);
    }
    assert rows[..|rows|] == rows;
    KeyOrderListsGrouped(rows);
  }
}

=== FILE: seqs.dfy ===
/** Sequence helpers shared by both report pipelines: order-preserving
    filtering, boolean-mask selection, de-duplication and sums of reals.
    Every recursive definition peels off the LAST element, so that a loop
    over `s[..i]` extends it one element at a time. */
module Seqs {

  /** `a` can be obtained from `b` by deleting elements (order is kept). */
  ghost predicate IsSubseq<T>(a: seq<T>, b: seq<T>)
    decreases |b|
  {
    || |a| == 0
    || (&& |b| > 0
        && (|| (a[|a| - 1] == b[|b| - 1] && IsSubseq(a[..|a| - 1], b[..|b| - 1]))
            || IsSubseq(a, b[..|b| - 1])))
  }

  /** The elements of `s` that satisfy `p`, in their original order. */
  function Filter<T(!new)>(s: seq<T>, p: T -> bool): (r: seq<T>)
    ensures |r| <= |s|
  {
    if |s| == 0 then []
    else
      var init := Filter(s[..|s| - 1], p);
      assert s == s[..|s| - 1] + [s[|s| - 1]];
      if p(s[|s| - 1]) then init + [s[|s| - 1]] else init
  }

  /** The elements `Filter` keeps are the elements of `s` that satisfy `p`. */
  lemma {:induction false} FilterMembers<T(!new)>(s: seq<T>, p: T -> bool)
    ensures forall x :: x in Filter(s, p) <==> x in s && p(x)
    decreases |s|
  {
    if |s| > 0 {
      FilterMembers(s[..|s| - 1], p);
      assert s == s[..|s| - 1] + [s[|s| - 1]];
    }
  }

  /** Filtering one more element extends the result by at most that element. */
  lemma FilterSnoc<T(!new)>(s: seq<T>, x: T, p: T -> bool)
    ensures Filter(s + [x], p) == Filter(s, p) + (if p(x) then [x] else [])
  {
    assert (s + [x])[..|s + [x]| - 1] == s;
  }

  /** `Filter` keeps the order of `s`. */
  lemma {:induction false} FilterIsSubseq<T(!new)>(s: seq<T>, p: T -> bool)
    ensures IsSubseq(Filter(s, p), s)
    decreases |s|
  {
    if |s| > 0 {
      var init := s[..|s| - 1];
      FilterIsSubseq(init, p);
      var f := Filter(init, p);
      if p(s[|s| - 1]) {
        assert (f + [s[|s| - 1]])[..|f|] == f;
      }
    }
  }

  /** The first element `Filter` keeps is the first element of `s` that
      passes `p`. */
  lemma {:induction false} FilterHead<T(!new)>(s: seq<T>, p: T -> bool)
    requires |Filter(s, p)| > 0
    ensures exists i :: 0 <= i < |s| && s[i] == Filter(s, p)[0] && p(s[i]) && forall j :: 0 <= j < i ==> !p(s[j])
    decreases |s|
  {
    var init, last := s[..|s| - 1], s[|s| - 1];
    assert s == init + [last];
    FilterSnoc(init, last, p);
    var i: nat;
    if |Filter(init, p)| > 0 {
      FilterHead(init, p);
      i :| 0 <= i < |init| && init[i] == Filter(init, p)[0] && p(init[i]) && forall j :: 0 <= j < i ==> !p(init[j]);
      assert Filter(s, p)[0] == Filter(init, p)[0];
    } else {
      i := |s| - 1;
      FilterMembers(init, p);
      forall j | 0 <= j < i
        ensures !p(s[j])
      {
        assert s[j] in init;
      }
    }
    assert forall j :: 0 <= j < i ==> !p(s[j]);
    assert 0 <= i < |s| && s[i] == Filter(s, p)[0] && p(s[i]);
  }

  /** Filtering distributes over concatenation: the order of `a` then `b` is kept. */
  lemma {:induction false} FilterAppend<T(!new)>(a: seq<T>, b: seq<T>, p: T -> bool)
    ensures Filter(a + b, p) == Filter(a, p) + Filter(b, p)
    decreases |b|
  {
    if |b| == 0 {
      assert a + b == a;
    } else {
      var b' := b[..|b| - 1];
      var x := b[|b| - 1];
      assert a + b == (a + b') + [x];
      assert b == b' + [x];
      FilterSnoc(a + b', x, p);
      FilterSnoc(b', x, p);
      FilterAppend(a, b', p);
    }
  }

  /** Filtering by `p` and then by `q` is filtering once by their conjunction. */
  lemma {:induction false} FilterFilter<T(!new)>(s: seq<T>, p: T -> bool, q: T -> bool, pq: T -> bool)
    requires forall x :: pq(x) == (p(x) && q(x))
    ensures Filter(Filter(s, p), q) == Filter(s, pq)
    decreases |s|
  {
    if |s| > 0 {
      var init := s[..|s| - 1];
      var x := s[|s| - 1];
      assert s == init + [x];
      FilterFilter(init, p, q, pq);
      FilterSnoc(init, x, p);
      FilterSnoc(init, x, pq);
      FilterSnoc(Filter(init, p), x, q);
    }
  }

  /** Nothing passes a filter that no element satisfies. */
  lemma {:induction false} FilterNone<T(!new)>(s: seq<T>, p: T -> bool)
    requires forall i :: 0 <= i < |s| ==> !p(s[i])
    ensures Filter(s, p) == []
    decreases |s|
  {
    if |s| > 0 {
      FilterNone(s[..|s| - 1], p);
    }
  }

  /** The boolean mask a dataframe comparison produces: entry `i` says whether
      element `i` satisfies `p`. */
  function MaskOf<T(!new)>(s: seq<T>, p: T -> bool): (mask: seq<bool>)
    ensures |mask| == |s|
    ensures forall i :: 0 <= i < |s| ==> mask[i] == p(s[i])
  {
    seq(|s|, i requires 0 <= i < |s| => p(s[i]))
  }

  /** Element-wise conjunction of two masks (the `&` of two boolean columns). */
  function And(m1: seq<bool>, m2: seq<bool>): (m: seq<bool>)
    requires |m1| == |m2|
    ensures |m| == |m1|
    ensures forall i :: 0 <= i < |m| ==> m[i] == (m1[i] && m2[i])
  {
    seq(|m1|, i requires 0 <= i < |m1| => m1[i] && m2[i])
  }

  /** Boolean indexing: the elements of `s` whose mask entry is true, in order. */
  function Select<T(!new)>(s: seq<T>, mask: seq<bool>): (r: seq<T>)
    requires |mask| == |s|
    ensures |r| == CountTrue(mask)
    ensures forall x :: x in r ==> x in s
  {
    if |s| == 0 then []
    else
      var init := Select(s[..|s| - 1], mask[..|mask| - 1]);
      assert s == s[..|s| - 1] + [s[|s| - 1]];
      if mask[|mask| - 1] then init + [s[|s| - 1]] else init
  }

  /** The number of true entries of a mask (a boolean column's `.sum()`). */
  function CountTrue(mask: seq<bool>): nat
  {
    if |mask| == 0 then 0
    else CountTrue(mask[..|mask| - 1]) + (if mask[|mask| - 1] then 1 else 0)
  }

  /** Selecting with the mask of `p` is the same as filtering by `p`. */
  lemma {:induction false} SelectMaskIsFilter<T(!new)>(s: seq<T>, p: T -> bool)
    ensures Select(s, MaskOf(s, p)) == Filter(s, p)
    decreases |s|
  {
    if |s| > 0 {
      var init := s[..|s| - 1];
      assert MaskOf(s, p)[..|s| - 1] == MaskOf(init, p);
      SelectMaskIsFilter(init, p);
    }
  }

  /** Selecting with the conjunction of the masks of `p` and `q` is filtering
      by `pq` when `pq` is their conjunction. */
  lemma {:induction false} SelectAndIsFilter<T(!new)>(s: seq<T>, p: T -> bool, q: T -> bool, pq: T -> bool)
    requires forall x :: pq(x) == (p(x) && q(x))
    ensures Select(s, And(MaskOf(s, p), MaskOf(s, q))) == Filter(s, pq)
    decreases |s|
  {
    if |s| > 0 {
      var init := s[..|s| - 1];
      assert And(MaskOf(s, p), MaskOf(s, q))[..|s| - 1] == And(MaskOf(init, p), MaskOf(init, q));
      SelectAndIsFilter(init, p, q, pq);
    }
  }

  /** Each distinct element of `s` once, in order of first appearance
      (the behaviour of a column's `unique()`). */
  function Distinct<T(==,!new)>(s: seq<T>): (r: seq<T>)
    ensures forall x :: x in r <==> x in s
    ensures forall i, j :: 0 <= i < j < |r| ==> r[i] != r[j]
  {
    if |s| == 0 then []
    else
      var init := Distinct(s[..|s| - 1]);
      assert s == s[..|s| - 1] + [s[|s| - 1]];
      if s[|s| - 1] in init then init else init + [s[|s| - 1]]
  }

  /** `Distinct` keeps the order of `s`. */
  lemma {:induction false} DistinctIsSubseq<T(!new)>(s: seq<T>)
    ensures IsSubseq(Distinct(s), s)
    decreases |s|
  {
    if |s| > 0 {
      var init := s[..|s| - 1];
      DistinctIsSubseq(init);
      var d := Distinct(init);
      if s[|s| - 1] !in d {
        assert (d + [s[|s| - 1]])[..|d|] == d;
      }
    }
  }

  /** Some occurrence of `a` in `s` comes before every occurrence of `b`. */
  ghost predicate OccursBefore<T>(s: seq<T>, a: T, b: T)
  {
    exists p :: 0 <= p < |s| && s[p] == a && forall q :: 0 <= q <= p ==> s[q] != b
  }

  /** `Distinct` lists the elements in order of first appearance: of two
      listed elements, the earlier one occurs in `s` before the later one
      first does. */
  lemma {:induction false} DistinctFirstAppearance<T(!new)>(s: seq<T>)
    ensures forall i, j :: 0 <= i < j < |Distinct(s)| ==> OccursBefore(s, Distinct(s)[i], Distinct(s)[j])
    decreases |s|
  {
    if |s| > 0 {
      var init, x := s[..|s| - 1], s[|s| - 1];
      assert s == init + [x];
      DistinctFirstAppearance(init);
      var d := Distinct(init);
      var r := Distinct(s);
      forall i, j | 0 <= i < j < |r|
        ensures OccursBefore(s, r[i], r[j])
      {
        if j < |d| {
          OccursBeforeSnoc(init, x, d[i], d[j]);
        } else {
          assert d[i] in d;
          NewElementOccursLast(init, x, d[i]);
        }
      }
    }
  }

  /** One more element keeps an earlier occurrence earlier. */
  lemma OccursBeforeSnoc<T>(init: seq<T>, x: T, a: T, b: T)
    requires OccursBefore(init, a, b)
    ensures OccursBefore(init + [x], a, b)
  {
    var p :| 0 <= p < |init| && init[p] == a && forall q :: 0 <= q <= p ==> init[q] != b;
    var s := init + [x];
    assert s[p] == a;
    forall q | 0 <= q <= p
      ensures s[q] != b
    {
      assert s[q] == init[q];
    }
  }

  /** An element already present occurs before a new last element. */
  lemma NewElementOccursLast<T>(init: seq<T>, x: T, a: T)
    requires a in init && x !in init
    ensures OccursBefore(init + [x], a, x)
  {
    var p :| 0 <= p < |init| && init[p] == a;
    var s := init + [x];
    assert s[p] == a;
    forall q | 0 <= q <= p
      ensures s[q] != x
    {
      assert s[q] == init[q];
      assert init[q] in init;
    }
  }

  /** Filtering a sequence without repetitions gives one without
      repetitions. */
  lemma {:induction false} FilterKeepsDistinct<T(!new)>(s: seq<T>, p: T -> bool)
    ensures (forall i, j :: 0 <= i < j < |s| ==> s[i] != s[j]) ==>
      forall i, j :: 0 <= i < j < |Filter(s, p)| ==> Filter(s, p)[i] != Filter(s, p)[j]
    decreases |s|
  {
    if |s| > 0 && forall i, j :: 0 <= i < j < |s| ==> s[i] != s[j] {
      var init, x := s[..|s| - 1], s[|s| - 1];
      assert forall i, j :: 0 <= i < j < |init| ==> init[i] != init[j] by {
        forall i, j | 0 <= i < j < |init|
          ensures init[i] != init[j]
        {
          assert init[i] == s[i] && init[j] == s[j];
        }
      }
      FilterKeepsDistinct(init, p);
      FilterMembers(init, p);
      forall k | 0 <= k < |init|
        ensures init[k] != x
      {
        assert init[k] == s[k];
      }
    }
  }

  /** The sum of a sequence of reals (exact, so the order of addition does
      not matter). */
  function Sum(s: seq<real>): real
  {
    if |s| == 0 then 0.0 else Sum(s[..|s| - 1]) + s[|s| - 1]
  }

  /** The arithmetic mean `sum(s) / len(s)` of a non-empty sequence. */
  function Mean(s: seq<real>): (m: real)
    requires |s| > 0
    ensures m * (|s| as real) == Sum(s)
  {
    Sum(s) / (|s| as real)
  }

  /** If every element lies in `[lo, hi]` then so does the sum, scaled by the length. */
  lemma {:induction false} SumBounds(s: seq<real>, lo: real, hi: real)
    requires forall i :: 0 <= i < |s| ==> lo <= s[i] <= hi
    ensures lo * (|s| as real) <= Sum(s) <= hi * (|s| as real)
    decreases |s|
  {
    if |s| > 0 {
      SumBounds(s[..|s| - 1], lo, hi);
    }
  }

  /** The mean of values in `[lo, hi]` lies in `[lo, hi]`. */
  lemma MeanBounds(s: seq<real>, lo: real, hi: real)
    requires |s| > 0
    requires forall i :: 0 <= i < |s| ==> lo <= s[i] <= hi
    ensures lo <= Mean(s) <= hi
  {
    SumBounds(s, lo, hi);
  }
}

=== FILE: validation.dfy ===
/** The validation module's independent re-computation of the five report
    sections with boolean row masks, its integrity check of the loaded
    sheet, and the pass/fail summary over all of them. */
module Validation {
  import opened Wrappers
  import opened Seqs
  import opened Opportunity
  import opened WinRate

  /** The columns the sheet must have, in the order they are checked and
      read. */
  const ExpectedColumns: seq<string> :=
    ["ID", "ProductName", "CustomerName", "ACV", "Status", "CloseDate", "StartDate"]

  /** The status labels the integrity check accepts. */
  const ExpectedStatuses: seq<string> := ["Won", "Lost", "Open"]

  /** A loaded sheet: the names of the columns it has, and its rows. The
      row values of an absent column are never read, because any access to
      such a column stops the run first. */
  datatype Table = Table(columns: seq<string>, rows: seq<Row>)

  /** Every status in `rows` came from parsing a label. */
  predicate Parsed(rows: seq<Row>)
  {
    forall i :: 0 <= i < |rows| ==> Canonical(rows[i].status)
  }

  // ---------------------------------------------------------------------
  // Data integrity
  // ---------------------------------------------------------------------

  /** The column filter "not among `present`". */
  function AbsentFrom(present: seq<string>): string -> bool
  {
    (c: string) => c !in present
  }

  /** The expected columns the sheet lacks, in expected order. */
  function MissingColumns(present: seq<string>): (missing: seq<string>)
    ensures forall c :: c in missing <==> c in ExpectedColumns && c !in present
    ensures |missing| == 0 <==> forall c :: c in ExpectedColumns ==> c in present
  {
    var absent := AbsentFrom(present);
    FilterMembers(ExpectedColumns, absent);
    assert |Filter(ExpectedColumns, absent)| > 0 ==> Filter(ExpectedColumns, absent)[0] in Filter(ExpectedColumns, absent);
    Filter(ExpectedColumns, absent)
  }

  /** The missing columns are listed in the order the expected columns are
      declared. */
  lemma MissingInExpectedOrder(present: seq<string>)
    ensures IsSubseq(MissingColumns(present), ExpectedColumns)
  {
    FilterIsSubseq(ExpectedColumns, AbsentFrom(present));
  }

  /** The Status column as the sheet holds it: one label per row. */
  function StatusLabels(rows: seq<Row>): (labels: seq<string>)
    ensures |labels| == |rows|
    ensures forall i :: 0 <= i < |rows| ==> labels[i] == Label(rows[i].status)
  {
    seq(|rows|, i requires 0 <= i < |rows| => Label(rows[i].status))
  }

  /** What the integrity check reports. `dataTypesValid` is never set to
      anything but true. */
  datatype IntegrityReport = IntegrityReport(
    totalRecords: nat,
    columnCheck: bool,
    missingColumns: seq<string>,
    dataTypesValid: bool,
    statusValues: seq<string>,
    unexpectedStatuses: seq<string>,
    dateRangeValid: bool)

  /** The distinct status labels, in order of first appearance; gathered
      only when the Status column exists. */
  function StatusValues(t: Table): (values: seq<string>)
    ensures "Status" !in t.columns ==> values == []
    ensures "Status" in t.columns ==>
      forall s :: s in values <==> exists i :: 0 <= i < |t.rows| && Label(t.rows[i].status) == s
    ensures forall i, j :: 0 <= i < j < |values| ==> values[i] != values[j]
  {
    if "Status" in t.columns then
      var labels := StatusLabels(t.rows);
      assert forall s :: s in labels ==> exists i :: 0 <= i < |t.rows| && Label(t.rows[i].status) == s by {
        forall s | s in labels
          ensures exists i :: 0 <= i < |t.rows| && Label(t.rows[i].status) == s
        {
          var i :| 0 <= i < |labels| && labels[i] == s;
        }
      }
      Distinct(labels)
    else []
  }

  /** The status values keep the order in which the rows first show them:
      of two listed values, the earlier one labels a row before any row the
      later one labels. */
  lemma StatusValuesInRowOrder(t: Table)
    requires "Status" in t.columns
    ensures IsSubseq(StatusValues(t), StatusLabels(t.rows))
    ensures forall i, j :: 0 <= i < j < |StatusValues(t)| ==>
      OccursBefore(StatusLabels(t.rows), StatusValues(t)[i], StatusValues(t)[j])
  {
    DistinctIsSubseq(StatusLabels(t.rows));
    DistinctFirstAppearance(StatusLabels(t.rows));
  }

  /** The status filter "not one of the expected labels". */
  predicate IsUnexpected(s: string)
  {
    s !in ExpectedStatuses
  }

  /** The status values that are not one of the expected labels, in the
      order of `values`. */
  function UnexpectedStatuses(values: seq<string>): (unexpected: seq<string>)
    ensures forall s :: s in unexpected <==> s in values && s !in ExpectedStatuses
    ensures values == [] ==> unexpected == []
    ensures IsSubseq(unexpected, values)
    ensures (forall i, j :: 0 <= i < j < |values| ==> values[i] != values[j]) ==>
      forall i, j :: 0 <= i < j < |unexpected| ==> unexpected[i] != unexpected[j]
  {
    FilterMembers(values, IsUnexpected);
    FilterIsSubseq(values, IsUnexpected);
    FilterKeepsDistinct(values, IsUnexpected);
    Filter(values, IsUnexpected)
  }

  /** The integrity check. The date range is valid when the close dates
      have a minimum and a maximum to format: there must be a CloseDate
      column and at least one row (the minimum of no dates cannot be
      formatted). */
  function ValidateIntegrity(t: Table): (r: IntegrityReport)
    ensures r.totalRecords == |t.rows|
    ensures r.columnCheck <==> forall c :: c in ExpectedColumns ==> c in t.columns
    ensures forall c :: c in r.missingColumns <==> c in ExpectedColumns && c !in t.columns
    ensures r.missingColumns == MissingColumns(t.columns)
    ensures r.dataTypesValid
    ensures r.statusValues == StatusValues(t)
    ensures forall s :: s in r.unexpectedStatuses <==> s in r.statusValues && s !in ExpectedStatuses
    ensures r.unexpectedStatuses == UnexpectedStatuses(r.statusValues)
    ensures r.dateRangeValid <==> "CloseDate" in t.columns && |t.rows| > 0
  {
    var missing := MissingColumns(t.columns);
    var values := StatusValues(t);
    IntegrityReport(
      |t.rows|,
      |missing| == 0,
      missing,
      true,
      values,
      UnexpectedStatuses(values),
      "CloseDate" in t.columns && |t.rows| > 0)
  }

  /** On parsed rows, a label that appears but is not one of the three
      expected ones is exactly the text of an `Other` status. */
  lemma OtherLabelIff(rows: seq<Row>, s: string)
    requires Parsed(rows)
    ensures ((exists i :: 0 <= i < |rows| && Label(rows[i].status) == s) && s !in ExpectedStatuses) <==>
      exists i :: 0 <= i < |rows| && rows[i].status == Other(s)
  {
    if exists i :: 0 <= i < |rows| && rows[i].status == Other(s) {
      var i :| 0 <= i < |rows| && rows[i].status == Other(s);
      assert Canonical(rows[i].status);
      assert Label(rows[i].status) == s;
    }
  }

  /** On parsed rows, the unexpected status values are exactly the labels
      of the `Other` statuses, so the check flags nothing exactly when every
      status is Open, Won or Lost. */
  lemma UnexpectedAreOther(t: Table)
    requires "Status" in t.columns && Parsed(t.rows)
    ensures forall s :: s in ValidateIntegrity(t).unexpectedStatuses <==>
      exists i :: 0 <= i < |t.rows| && t.rows[i].status == Other(s)
    ensures ValidateIntegrity(t).unexpectedStatuses == [] <==>
      forall i :: 0 <= i < |t.rows| ==> !t.rows[i].status.Other?
  {
    var unexpected := ValidateIntegrity(t).unexpectedStatuses;
    UnexpectedMembers(t);
    if unexpected != [] {
      assert unexpected[0] in unexpected;
    }
    if exists i :: 0 <= i < |t.rows| && t.rows[i].status.Other? {
      var i :| 0 <= i < |t.rows| && t.rows[i].status.Other?;
      assert t.rows[i].status == Other(t.rows[i].status.text);
      assert t.rows[i].status.text in unexpected;
    }
  }

  /** On parsed rows, a text is an unexpected status exactly when some row
      has the `Other` status with that text. */
  lemma UnexpectedMembers(t: Table)
    requires "Status" in t.columns && Parsed(t.rows)
    ensures forall s :: s in ValidateIntegrity(t).unexpectedStatuses <==>
      exists i :: 0 <= i < |t.rows| && t.rows[i].status == Other(s)
  {
    var unexpected := ValidateIntegrity(t).unexpectedStatuses;
    forall s
      ensures s in unexpected <==> exists i :: 0 <= i < |t.rows| && t.rows[i].status == Other(s)
    {
      OtherLabelIff(t.rows, s);
    }
  }

  // ---------------------------------------------------------------------
  // Section 1: extraction
  // ---------------------------------------------------------------------

  /** The names under which the seven arrays are reported. */
  const ArrayNames: seq<string> :=
    ["IDs", "Products", "Customers", "ACVs", "Statuses", "Close dates", "Start dates"]

  /** One array's check: it has one entry per row. */
  datatype ArrayCheck = ArrayCheck(name: string, valid: bool)

  /** Each array's length compared with the row count, in extraction
      order. */
  function ArrayChecks(c: Columns, n: nat): (checks: seq<ArrayCheck>)
    ensures |checks| == |ArrayNames|
    ensures forall i :: 0 <= i < |checks| ==> checks[i].name == ArrayNames[i]
  {
    var lengths := Lengths(c);
    seq(|ArrayNames|, i requires 0 <= i < |ArrayNames| => ArrayCheck(ArrayNames[i], lengths[i] == n))
  }

  predicate AllValid(checks: seq<ArrayCheck>)
  {
    forall i :: 0 <= i < |checks| ==> checks[i].valid
  }

  /** All seven checks pass exactly when every array has `n` entries. */
  lemma ArrayChecksPassIffAligned(c: Columns, n: nat)
    ensures AllValid(ArrayChecks(c, n)) <==> Aligned(c, n)
  {
    var checks := ArrayChecks(c, n);
    if AllValid(checks) {
      assert checks[0].valid && checks[1].valid && checks[2].valid && checks[3].valid;
      assert checks[4].valid && checks[5].valid && checks[6].valid;
    }
  }

  /** Section 1 re-run: reading the seven columns stops at the first one the
      sheet lacks; otherwise every array extracted from the rows has one
      entry per row, so every check passes. */
  function ValidateSection1(t: Table): (r: Result<seq<ArrayCheck>, string>)
    ensures r.Failure? <==> exists c :: c in ExpectedColumns && c !in t.columns
    ensures r.Failure? ==> r.error in ExpectedColumns && r.error !in t.columns
    ensures r.Success? ==> AllValid(r.value)
  {
    var missing := MissingColumns(t.columns);
    if |missing| > 0 then
      assert missing[0] in missing;
      Failure(missing[0])
    else
      ArrayChecksPassIffAligned(Extract(t.rows), |t.rows|);
      Success(ArrayChecks(Extract(t.rows), |t.rows|))
  }

  // ---------------------------------------------------------------------
  // Sections 2 to 4: mask-based recomputation
  // ---------------------------------------------------------------------

  /** Section 2's year mask: closing in the overdue year. */
  predicate ClosesInOverdueYear(r: Row)
  {
    r.close.year == OverdueYear
  }

  /** Section 5's year mask: closing in the win-rate year. */
  predicate ClosesInWinRateYear(r: Row)
  {
    r.close.year == WinRateYear
  }

  predicate StartsIn2026(r: Row)
  {
    r.start.year == RevenueYear
  }

  /** Status Won or Lost. */
  predicate HasTerminalStatus(r: Row)
  {
    r.status == Won || r.status == Lost
  }

  /** What Section 2's check reports; both flags are always true. */
  datatype OverdueCheck = OverdueCheck(expectedCount: nat, expectedIds: seq<int>, logicValid: bool, dateParsingCorrect: bool)

  /** Section 2 re-run: the ids of the rows whose status is Open and whose
      close year is 2025. */
  function ValidateSection2(rows: seq<Row>): (r: OverdueCheck)
    ensures r.expectedCount == |r.expectedIds| <= |rows|
    ensures r.logicValid && r.dateParsingCorrect
  {
    var mask := And(MaskOf(rows, HasOpenStatus), MaskOf(rows, ClosesInOverdueYear));
    var ids := Ids(Select(rows, mask));
    assert CountTrue(mask) <= |rows| by {
      SelectAndIsFilter(rows, HasOpenStatus, ClosesInOverdueYear, IsOverdue);
    }
    OverdueCheck(|ids|, ids, true, true)
  }

  /** What Section 3's check reports. */
  datatype RevenueCheck = RevenueCheck(expectedAcv: real, dealCount: nat, avgDealSize: real, calculationValid: bool)

  /** Section 3 re-run: the ACV of the Won rows starting in 2026, their
      number, and the average deal size (0 without such rows). */
  function ValidateSection3(rows: seq<Row>): (r: RevenueCheck)
    ensures r.calculationValid
    ensures r.dealCount == 0 ==> r.expectedAcv == 0.0
    ensures r.avgDealSize == AverageDealSize(r.expectedAcv, r.dealCount)
    ensures r.dealCount <= |rows|
  {
    var mask := And(MaskOf(rows, HasWonStatus), MaskOf(rows, StartsIn2026));
    var won := Select(rows, mask);
    var count := CountTrue(mask);
    SelectAndIsFilter(rows, HasWonStatus, StartsIn2026, IsWonIn2026);
    assert count == 0 ==> won == [];
    RevenueCheck(SumAcv(won), count, AverageDealSize(SumAcv(won), count), true)
  }

  /** The total divided by the deal count, or 0 without deals. */
  function AverageDealSize(total: real, count: nat): (avg: real)
    ensures count == 0 ==> avg == 0.0
    ensures count > 0 ==> avg * (count as real) == total
  {
    if count > 0 then total / count as real else 0.0
  }

  /** What Section 4's check reports. */
  datatype ForecastCheck = ForecastCheck(
    wonAcv: real,
    wonCount: nat,
    openExpectedAcv: real,
    openCount: nat,
    totalExpected: real,
    probabilityAppliedCorrectly: bool)

  /** Section 4 re-run: the Won rows starting in March 2026 count in full,
      the Open ones with their summed ACV weighted by 0.25. */
  function ValidateSection4(rows: seq<Row>): (r: ForecastCheck)
    ensures r.totalExpected == r.wonAcv + r.openExpectedAcv
    ensures r.openExpectedAcv * 4.0 == SumAcv(Filter(rows, IsOpenInForecastMonth))
    ensures r.wonCount + r.openCount <= |rows|
    ensures r.probabilityAppliedCorrectly
  {
    var march := MaskOf(rows, StartsInForecastMonth);
    var wonMarch := Select(rows, And(march, MaskOf(rows, HasWonStatus)));
    var openMarch := Select(rows, And(march, MaskOf(rows, HasOpenStatus)));
    var wonAcv := SumAcv(wonMarch);
    var openExpected := SumAcv(openMarch) * OpenWeight;
    SelectAndIsFilter(rows, StartsInForecastMonth, HasOpenStatus, IsOpenInForecastMonth);
    SelectAndIsFilter(rows, StartsInForecastMonth, HasWonStatus, IsWonInForecastMonth);
    MarchDealsDisjoint(rows);
    ForecastCheck(wonAcv, |wonMarch|, openExpected, |openMarch|, wonAcv + openExpected, true)
  }

  /** No row is both a Won and an Open March deal, so together they are at
      most all rows. */
  lemma {:induction false} MarchDealsDisjoint(rows: seq<Row>)
    ensures |Filter(rows, IsWonInForecastMonth)| + |Filter(rows, IsOpenInForecastMonth)| <= |rows|
    decreases |rows|
  {
    if |rows| > 0 {
      var init := rows[..|rows| - 1];
      var r := rows[|rows| - 1];
      assert rows == init + [r];
      MarchDealsDisjoint(init);
      FilterSnoc(init, r, IsWonInForecastMonth);
      FilterSnoc(init, r, IsOpenInForecastMonth);
    }
  }

  // ---------------------------------------------------------------------
  // Section 5: win rates from masks
  // ---------------------------------------------------------------------

  /** A month's statistics: its closed deals, its wins and its win rate in
      percent. */
  datatype MonthStat = MonthStat(total: nat, won: nat, winRate: real)

  /** The row filter "closes in month `m`" (of any year; it is applied to
      deals already known to close in 2025). */
  function CloseMonthIs(m: int): Row -> bool
  {
    (r: Row) => r.close.month == m
  }

  /** The statistics of one month's deals. */
  function StatOf(monthDeals: seq<Row>): (s: MonthStat)
    requires |monthDeals| > 0
    ensures s.total == |monthDeals| && s.won <= s.total
    ensures s.won == |Filter(monthDeals, HasWonStatus)|
    ensures s.winRate == Rate(Bucket(s.won, s.total))
  {
    var won := Filter(monthDeals, HasWonStatus);
    MonthStat(|monthDeals|, |won|, |won| as real / |monthDeals| as real * 100.0)
  }

  /** The statistics of every month 1 to 12 with at least one deal among
      `closed`. */
  function MonthlyStats(closed: seq<Row>): (stats: map<int, MonthStat>)
    ensures forall m :: m in stats <==> 1 <= m <= 12 && |Filter(closed, CloseMonthIs(m))| > 0
    ensures forall m :: m in stats ==>
      stats[m].total >= 1 && stats[m].won <= stats[m].total && 0.0 <= stats[m].winRate <= 100.0
  {
    map m | 1 <= m <= 12 && |Filter(closed, CloseMonthIs(m))| > 0 :: StatOf(Filter(closed, CloseMonthIs(m)))
  }

  /** The win rate of every month with statistics. */
  function StatRates(stats: map<int, MonthStat>): (rates: map<int, real>)
    ensures rates.Keys == stats.Keys
    ensures forall m :: m in rates ==> rates[m] == stats[m].winRate
  {
    map m | m in stats :: stats[m].winRate
  }

  /** The overall win rate in percent, `won / closed * 100`, or 0 without
      closed deals. */
  function OverallRate(won: nat, closed: nat): (rate: real)
    ensures closed == 0 ==> rate == 0.0
    ensures closed > 0 ==> rate == Rate(Bucket(won, closed))
  {
    if closed > 0 then won as real / closed as real * 100.0 else 0.0
  }

  /** What Section 5's check reports, with the half-year trend it prints. */
  datatype WinRateCheck = WinRateCheck(
    monthlyStats: map<int, MonthStat>,
    overallWinRate: real,
    totalDeals: nat,
    totalWon: nat,
    trend: Option<HalfTrend>,
    analysisValid: bool)

  /** The fewest populated months for which the check looks at the trend. */
  const MinTrendMonths := 6

  /** Section 5 re-run: the deals with a 2025 close date and status Won or
      Lost are split by close month; the overall rate defaults to 0 without
      such deals, and the trend is computed only from at least six
      populated months with both halves populated. */
  function ValidateSection5(rows: seq<Row>): (r: WinRateCheck)
    ensures r.totalWon <= r.totalDeals <= |rows|
    ensures 0.0 <= r.overallWinRate <= 100.0
    ensures r.totalDeals == 0 <==> r.monthlyStats == map[]
    ensures r.trend.Some? ==> |r.monthlyStats| >= MinTrendMonths
    ensures r.analysisValid
    ensures r.monthlyStats == MonthlyStats(Filter(rows, IsClosedIn2025))
    ensures r.totalDeals == |Filter(rows, IsClosedIn2025)|
    ensures r.totalWon == |Filter(rows, IsWonClosedIn2025)|
  {
    var mask := And(MaskOf(rows, ClosesInWinRateYear), MaskOf(rows, HasTerminalStatus));
    var closed := Select(rows, mask);
    var stats := MonthlyStats(closed);
    var won := Filter(closed, HasWonStatus);
    var overall := OverallRate(|won|, |closed|);
    SelectAndIsFilter(rows, ClosesInWinRateYear, HasTerminalStatus, IsClosedIn2025);
    FilterFilter(rows, IsClosedIn2025, HasWonStatus, IsWonClosedIn2025);
    ClosedHaveStats(closed);
    WinRateCheck(stats, overall, |closed|, |won|, StatsTrend(stats), true)
  }

  /** The trend the check looks at: the half-year trend of the monthly
      rates, computed only when at least six months are populated. */
  function StatsTrend(stats: map<int, MonthStat>): (t: Option<HalfTrend>)
    requires forall m :: m in stats ==> 1 <= m <= 12 && 0.0 <= stats[m].winRate <= 100.0
    ensures t.Some? ==> |stats| >= MinTrendMonths
    ensures |stats| >= MinTrendMonths ==> t == TrendOf(StatRates(stats))
  {
    var months := SortedMonths(stats.Keys);
    DistinctSortedSize(stats.Keys, months);
    if |months| >= MinTrendMonths then TrendOf(StatRates(stats)) else None
  }

  /** A month of a 2025 closed deal always has statistics: there are no
      statistics exactly when there are no deals. */
  lemma ClosedHaveStats(closed: seq<Row>)
    ensures |closed| == 0 <==> MonthlyStats(closed) == map[]
  {
    if |closed| > 0 {
      var m := closed[0].close.month;
      FilterMembers(closed, CloseMonthIs(m));
      assert closed[0] in Filter(closed, CloseMonthIs(m));
      assert m in MonthlyStats(closed);
    }
  }

  /** A strictly ascending listing of a set has one entry per element. */
  lemma DistinctSortedSize(keys: set<int>, ms: seq<int>)
    requires forall k :: k in ms <==> k in keys
    requires forall i, j :: 0 <= i < j < |ms| ==> ms[i] < ms[j]
    ensures |ms| == |keys|
    decreases |ms|
  {
    if |ms| > 0 {
      var last := ms[|ms| - 1];
      var init := ms[..|ms| - 1];
      assert last in keys;
      forall k
        ensures k in init <==> k in keys - {last}
      {
        if k in init {
          var i :| 0 <= i < |init| && init[i] == k;
          assert ms[i] < ms[|ms| - 1];
        }
        if k in keys - {last} {
          var i :| 0 <= i < |ms| && ms[i] == k;
          assert i < |ms| - 1;
          assert init[i] == k;
        }
      }
      DistinctSortedSize(keys - {last}, init);
      assert |keys - {last}| == |keys| - 1;
    } else {
      assert forall k :: k !in keys;
      assert keys == {};
    }
  }

  // ---------------------------------------------------------------------
  // The comprehensive run and its summary
  // ---------------------------------------------------------------------

  datatype SectionName = DataIntegrity | Section1 | Section2 | Section3 | Section4 | Section5

  /** One line of the summary: a section and whether it passed. */
  datatype Verdict = Verdict(section: SectionName, passed: bool)

  /** The outcome of the comprehensive run: either every section's result
      and the summary, or the integrity report and the name of the column
      whose lookup stopped the run. */
  datatype Outcome =
    | Completed(
        integrity: IntegrityReport,
        section1: seq<ArrayCheck>,
        section2: OverdueCheck,
        section3: RevenueCheck,
        section4: ForecastCheck,
        section5: WinRateCheck,
        verdicts: seq<Verdict>,
        allPassed: bool)
    | Aborted(integrity: IntegrityReport, missingColumn: string)

  /** The pass rule for Sections 2 to 5: the `calculation_valid` flag or
      the `analysis_valid` flag, each counting as true when the result has
      no such entry. It fails only when both flags are present and false. */
  function DefaultedPass(calculationValid: Option<bool>, analysisValid: Option<bool>): (passed: bool)
    ensures !passed <==> calculationValid == Some(false) && analysisValid == Some(false)
  {
    calculationValid.GetOr(true) || analysisValid.GetOr(true)
  }

  /** The summary lines, in the order the results were recorded. */
  function Verdicts(integrity: IntegrityReport, s1: seq<ArrayCheck>, s2: OverdueCheck,
                    s3: RevenueCheck, s4: ForecastCheck, s5: WinRateCheck): (vs: seq<Verdict>)
    ensures |vs| == 6
    ensures vs[0] == Verdict(DataIntegrity, integrity.columnCheck && integrity.dataTypesValid)
    ensures vs[1] == Verdict(Section1, AllValid(s1))
    ensures vs[2].section == Section2 && vs[3].section == Section3
    ensures vs[4].section == Section4 && vs[5].section == Section5
    ensures forall i :: 2 <= i < |vs| ==> vs[i].passed
  {
    [ Verdict(DataIntegrity, integrity.columnCheck && integrity.dataTypesValid),
      Verdict(Section1, AllValid(s1)),
      Verdict(Section2, DefaultedPass(None, None)),
      Verdict(Section3, DefaultedPass(Some(s3.calculationValid), None)),
      Verdict(Section4, DefaultedPass(None, None)),
      Verdict(Section5, DefaultedPass(None, Some(s5.analysisValid))) ]
  }

  predicate AllPassed(vs: seq<Verdict>)
  {
    forall i :: 0 <= i < |vs| ==> vs[i].passed
  }

  /** The comprehensive run: the integrity check, then Sections 1 to 5, then
      the summary. Section 1 reads every expected column, so a missing
      column stops the run there, after the integrity report. */
  function RunComprehensive(t: Table): (o: Outcome)
    ensures o.integrity == ValidateIntegrity(t)
    ensures o.Aborted? <==> exists c :: c in ExpectedColumns && c !in t.columns
    ensures o.Aborted? ==> o.missingColumn in ExpectedColumns && o.missingColumn !in t.columns
    ensures o.Completed? ==> AllValid(o.section1)
    ensures o.Completed? ==>
      && o.section2 == ValidateSection2(t.rows) && o.section3 == ValidateSection3(t.rows)
      && o.section4 == ValidateSection4(t.rows) && o.section5 == ValidateSection5(t.rows)
    ensures o.Completed? ==> o.verdicts == Verdicts(o.integrity, o.section1, o.section2, o.section3, o.section4, o.section5)
    ensures o.Completed? ==> (o.allPassed <==> AllPassed(o.verdicts))
  {
    var integrity := ValidateIntegrity(t);
    match ValidateSection1(t)
    case Failure(column) => Aborted(integrity, column)
    case Success(s1) =>
      var s2 := ValidateSection2(t.rows);
      var s3 := ValidateSection3(t.rows);
      var s4 := ValidateSection4(t.rows);
      var s5 := ValidateSection5(t.rows);
      var vs := Verdicts(integrity, s1, s2, s3, s4, s5);
      Completed(integrity, s1, s2, s3, s4, s5, vs, AllPassed(vs))
  }

  /** The column that stops the run is the first expected column, in
      reading order, that the sheet lacks. */
  lemma AbortsAtFirstMissing(t: Table)
    requires RunComprehensive(t).Aborted?
    ensures exists i :: (0 <= i < |ExpectedColumns| && ExpectedColumns[i] == RunComprehensive(t).missingColumn &&
      forall j :: 0 <= j < i ==> ExpectedColumns[j] in t.columns)
  {
    FilterHead(ExpectedColumns, (c: string) => c !in t.columns);
  }

  /** A sheet with every expected column completes the run, and a run that
      completes always reports that every validation passed: the integrity
      verdict reduces to the column check, Section 1's arrays always match
      the row count, and the rule for Sections 2 to 5 only reads flags that
      are true or absent. */
  lemma CompletedRunPasses(t: Table)
    requires forall c :: c in ExpectedColumns ==> c in t.columns
    ensures RunComprehensive(t).Completed?
    ensures RunComprehensive(t).allPassed
  {
    var o := RunComprehensive(t);
    VerdictsPass(o.integrity, o.section1, o.section2, o.section3, o.section4, o.section5);
  }

  /** With every column present, well-typed values and aligned arrays, every
      summary line passes: the remaining lines cannot fail. */
  lemma VerdictsPass(integrity: IntegrityReport, s1: seq<ArrayCheck>, s2: OverdueCheck,
                     s3: RevenueCheck, s4: ForecastCheck, s5: WinRateCheck)
    requires integrity.columnCheck && integrity.dataTypesValid && AllValid(s1)
    requires s3.calculationValid && s5.analysisValid
    ensures AllPassed(Verdicts(integrity, s1, s2, s3, s4, s5))
  {
    var vs := Verdicts(integrity, s1, s2, s3, s4, s5);
    assert vs[0].passed && vs[1].passed && vs[2].passed && vs[3].passed && vs[4].passed && vs[5].passed;
  }
}

=== FILE: winrate.dfy ===
/** The 2025 monthly win-rate analysis: grouping of closed deals into month
    buckets, monthly rates, the first-half/second-half trend, the best and
    worst month and the annual rate. Both scripts share these definitions;
    the summary is given twice, once as the analysis script runs it (it can
    crash) and once as evidently intended (every part that can be undefined
    is an `Option`). */
module WinRate {
  import opened Wrappers
  import opened Seqs
  import opened Opportunity

  /** Won and total closed deals of one month. */
  datatype Bucket = Bucket(won: nat, total: nat)

  /** The bucket invariant: every key is a month, every bucket holds at least
      one closed deal and no more wins than closed deals. */
  predicate WellFormed(perf: map<int, Bucket>)
  {
    forall m :: m in perf ==> 1 <= m <= 12 && 1 <= perf[m].total && perf[m].won <= perf[m].total
  }

  /** The number of deals closed (Won or Lost) in month `m` of 2025. */
  function ClosedCount(rows: seq<Row>, m: int): nat
  {
    |Filter(rows, ClosedInMonth(m))|
  }

  /** The number of deals won in month `m` of 2025. */
  function WonCount(rows: seq<Row>, m: int): nat
  {
    |Filter(rows, WonInMonth(m))|
  }

  /** The bucket the reference grouping assigns to month `m`. */
  function BucketOf(rows: seq<Row>, m: int): Bucket
  {
    Bucket(WonCount(rows, m), ClosedCount(rows, m))
  }

  /** A month's wins are among its closed deals. */
  lemma WonAtMostClosed(rows: seq<Row>)
    ensures forall m :: WonCount(rows, m) <= ClosedCount(rows, m)
  {
    forall m
      ensures WonCount(rows, m) <= ClosedCount(rows, m)
    {
      WonAtMostClosedAt(rows, m);
    }
  }

  /** `WonAtMostClosed` for one month. */
  lemma WonAtMostClosedAt(rows: seq<Row>, m: int)
    ensures WonCount(rows, m) <= ClosedCount(rows, m)
  {
    FilterFilter(rows, ClosedInMonth(m), HasWonStatus, WonInMonth(m));
  }

  /** One more row adds one to the closed count of its close month when it
      closed in 2025, and one to the won count when it was also won. */
  lemma CountsSnoc(init: seq<Row>, r: Row)
    ensures forall m :: ClosedCount(init + [r], m) == ClosedCount(init, m) + (if IsClosedIn2025(r) && r.close.month == m then 1 else 0)
    ensures forall m :: WonCount(init + [r], m) == WonCount(init, m) + (if IsClosedIn2025(r) && r.close.month == m && r.status == Won then 1 else 0)
  {
    forall m
      ensures ClosedCount(init + [r], m) == ClosedCount(init, m) + (if IsClosedIn2025(r) && r.close.month == m then 1 else 0)
      ensures WonCount(init + [r], m) == WonCount(init, m) + (if IsClosedIn2025(r) && r.close.month == m && r.status == Won then 1 else 0)
    {
      CountsSnocAt(init, r, m);
    }
  }

  /** `CountsSnoc` for one month. */
  lemma CountsSnocAt(init: seq<Row>, r: Row, m: int)
    ensures ClosedCount(init + [r], m) == ClosedCount(init, m) + (if IsClosedIn2025(r) && r.close.month == m then 1 else 0)
    ensures WonCount(init + [r], m) == WonCount(init, m) + (if IsClosedIn2025(r) && r.close.month == m && r.status == Won then 1 else 0)
  {
    FilterSnoc(init, r, ClosedInMonth(m));
    FilterSnoc(init, r, WonInMonth(m));
  }

  /** The reference grouping of the 2025 closed deals: a bucket for every
      month with at least one closed deal, holding that month's won and
      closed counts. */
  function Grouped(rows: seq<Row>): (perf: map<int, Bucket>)
    ensures WellFormed(perf)
    ensures forall m :: m in perf <==> 1 <= m <= 12 && ClosedCount(rows, m) > 0
    ensures forall m :: m in perf ==> perf[m] == Bucket(WonCount(rows, m), ClosedCount(rows, m))
  {
    WonAtMostClosed(rows);
    map m | 1 <= m <= 12 && ClosedCount(rows, m) > 0 :: BucketOf(rows, m)
  }

  /** The months in the order the grouping loop first meets them, which is
      the iteration order of the resulting dictionary. */
  function KeyOrder(rows: seq<Row>): (order: seq<int>)
    ensures forall m :: m in order <==> 1 <= m <= 12 && ClosedCount(rows, m) > 0
    ensures forall i, j :: 0 <= i < j < |order| ==> order[i] != order[j]
  {
    if |rows| == 0 then []
    else
      var init := rows[..|rows| - 1];
      var r := rows[|rows| - 1];
      var o := KeyOrder(init);
      assert rows == init + [r];
      CountsSnoc(init, r);
      if IsClosedIn2025(r) && r.close.month !in o then o + [r.close.month] else o
  }

  /** `order` lists exactly the months of `perf`. */
  predicate ListsKeys(perf: map<int, Bucket>, order: seq<int>)
  {
    (forall j :: 0 <= j < |order| ==> order[j] in perf) && (forall m :: m in perf ==> m in order)
  }

  /** The first-appearance order lists exactly the months of the reference
      grouping. */
  lemma KeyOrderListsGrouped(rows: seq<Row>)
    ensures ListsKeys(Grouped(rows), KeyOrder(rows))
  {
    var order := KeyOrder(rows);
    forall j | 0 <= j < |order|
      ensures order[j] in Grouped(rows)
    {
      assert order[j] in order;
    }
  }

  /** Some deal closed in month `a` of 2025 comes before every deal closed
      in month `b`: month `a` appears first in the rows. This is
      `Seqs.OccursBefore` read over the close months of the 2025 closed
      deals; it is stated over the rows themselves, where the grouping
      loop meets them, rather than over a derived sequence of months. */
  ghost predicate AppearsBefore(rows: seq<Row>, a: int, b: int)
  {
    exists p :: 0 <= p < |rows| && ClosedInMonth(a)(rows[p]) &&
      forall q :: 0 <= q <= p ==> !ClosedInMonth(b)(rows[q])
  }

  /** `KeyOrder` is the order of first appearance: of two listed months,
      the earlier one appears first in the rows. */
  lemma {:induction false} KeyOrderIsFirstAppearance(rows: seq<Row>)
    ensures forall i, j :: 0 <= i < j < |KeyOrder(rows)| ==> AppearsBefore(rows, KeyOrder(rows)[i], KeyOrder(rows)[j])
    decreases |rows|
  {
    if |rows| > 0 {
      var init, r := rows[..|rows| - 1], rows[|rows| - 1];
      assert rows == init + [r];
      KeyOrderIsFirstAppearance(init);
      var o := KeyOrder(init);
      var order := KeyOrder(rows);
      forall i, j | 0 <= i < j < |order|
        ensures AppearsBefore(rows, order[i], order[j])
      {
        if j < |o| {
          AppearsBeforeSnoc(init, r, o[i], o[j]);
        } else {
          assert o[i] in o;
          NewMonthAppearsLast(init, r, o[i]);
        }
      }
    }
  }

  /** One more row keeps an earlier first appearance. */
  lemma AppearsBeforeSnoc(init: seq<Row>, r: Row, a: int, b: int)
    requires AppearsBefore(init, a, b)
    ensures AppearsBefore(init + [r], a, b)
  {
    var p :| 0 <= p < |init| && ClosedInMonth(a)(init[p]) &&
      forall q :: 0 <= q <= p ==> !ClosedInMonth(b)(init[q]);
    var rows := init + [r];
    assert ClosedInMonth(a)(rows[p]);
    forall q | 0 <= q <= p
      ensures !ClosedInMonth(b)(rows[q])
    {
      assert rows[q] == init[q];
    }
  }

  /** A month already listed appears before the month of a row that closes
      in a month not yet listed. */
  lemma NewMonthAppearsLast(init: seq<Row>, r: Row, a: int)
    requires a in KeyOrder(init) && r.close.month !in KeyOrder(init)
    ensures AppearsBefore(init + [r], a, r.close.month)
  {
    var b := r.close.month;
    var fa := Filter(init, ClosedInMonth(a));
    FilterMembers(init, ClosedInMonth(a));
    FilterMembers(init, ClosedInMonth(b));
    assert fa[0] in fa;
    var p :| 0 <= p < |init| && init[p] == fa[0];
    var rows := init + [r];
    assert rows[p] == init[p];
    forall q | 0 <= q <= p
      ensures !ClosedInMonth(b)(rows[q])
    {
      assert rows[q] == init[q];
      assert rows[q] in init;
    }
  }

  /** A month's win rate in percent, `won / total * 100`. */
  function Rate(b: Bucket): (r: real)
    requires b.total > 0
    ensures b.won <= b.total ==> 0.0 <= r <= 100.0
    ensures r == 0.0 <==> b.won == 0
    ensures r == 100.0 <==> b.won == b.total
  {
    (b.won as real / b.total as real) * 100.0
  }

  /** Three wins out of five closed deals is a 60 percent win rate. */
  lemma RateExample()
    ensures Rate(Bucket(3, 5)) == 60.0
  {
  }

  /** Every rate of a rate table is a percentage. */
  predicate Percentages(rates: map<int, real>)
  {
    forall m :: m in rates ==> 0.0 <= rates[m] <= 100.0
  }

  /** The win rate of every populated month. */
  function RateTable(perf: map<int, Bucket>): (rates: map<int, real>)
    requires WellFormed(perf)
    ensures rates.Keys == perf.Keys
    ensures Percentages(rates)
    ensures forall m :: m in rates ==> rates[m] == Rate(perf[m])
  {
    map m | m in perf :: Rate(perf[m])
  }

  /** The months of `keys` from `m` onwards, ascending. */
  function MonthsFrom(keys: set<int>, m: int): (ms: seq<int>)
    requires 1 <= m <= 13
    ensures forall k :: k in ms <==> m <= k <= 12 && k in keys
    ensures forall i, j :: 0 <= i < j < |ms| ==> ms[i] < ms[j]
    decreases 13 - m
  {
    if m == 13 then []
    else
      var rest := MonthsFrom(keys, m + 1);
      assert forall j :: 0 <= j < |rest| ==> rest[j] in rest;
      if m in keys then [m] + rest else rest
  }

  /** `sorted(keys)` for a set of month numbers. */
  function SortedMonths(keys: set<int>): (ms: seq<int>)
    requires forall k :: k in keys ==> 1 <= k <= 12
    ensures forall k :: k in ms <==> k in keys
    ensures forall i, j :: 0 <= i < j < |ms| ==> ms[i] < ms[j]
  {
    MonthsFrom(keys, 1)
  }

  /** The rate of each month of `months`, in that order. */
  function RatesOf(rates: map<int, real>, months: seq<int>): (rs: seq<real>)
    requires forall i :: 0 <= i < |months| ==> months[i] in rates
    ensures |rs| == |months|
    ensures forall i :: 0 <= i < |months| ==> rs[i] == rates[months[i]]
  {
    seq(|months|, i requires 0 <= i < |months| => rates[months[i]])
  }

  predicate InFirstHalf(m: int)
  {
    m <= LastMonthOfFirstHalf
  }

  predicate InSecondHalf(m: int)
  {
    m > LastMonthOfFirstHalf
  }

  /** The first half (months up to June) and second half (July onwards)
      split the months: every month is in exactly one half, and the two
      lengths add up. */
  lemma {:induction false} HalvesPartition(months: seq<int>)
    ensures |Filter(months, InFirstHalf)| + |Filter(months, InSecondHalf)| == |months|
    ensures forall m :: m in months <==> (m in Filter(months, InFirstHalf) || m in Filter(months, InSecondHalf))
    ensures forall m :: !(m in Filter(months, InFirstHalf) && m in Filter(months, InSecondHalf))
    decreases |months|
  {
    FilterMembers(months, InFirstHalf);
    FilterMembers(months, InSecondHalf);
    if |months| > 0 {
      HalvesPartition(months[..|months| - 1]);
    }
  }

  /** The half-year comparison: the average monthly rate of each half and
      the change from the first to the second. */
  datatype HalfTrend = HalfTrend(firstAverage: real, secondAverage: real, change: real)

  /** All keys of a rate table are month numbers. */
  predicate MonthKeyed(rates: map<int, real>)
  {
    forall m :: m in rates ==> 1 <= m <= 12
  }

  /** The rates of the populated months of one half, in month order. */
  function HalfRates(rates: map<int, real>, half: int -> bool): (rs: seq<real>)
    requires MonthKeyed(rates) && Percentages(rates)
    ensures |rs| == |Filter(SortedMonths(rates.Keys), half)|
    ensures forall i :: 0 <= i < |rs| ==> 0.0 <= rs[i] <= 100.0
  {
    var months := SortedMonths(rates.Keys);
    FilterMembers(months, half);
    RatesOf(rates, Filter(months, half))
  }

  /** The comparison of two non-empty halves of percentages: their means
      are percentages and the change between them lies within 100 points. */
  function CompareHalves(first: seq<real>, second: seq<real>): (t: HalfTrend)
    requires |first| > 0 && |second| > 0
    requires forall i :: 0 <= i < |first| ==> 0.0 <= first[i] <= 100.0
    requires forall i :: 0 <= i < |second| ==> 0.0 <= second[i] <= 100.0
    ensures 0.0 <= t.firstAverage <= 100.0 && 0.0 <= t.secondAverage <= 100.0
    ensures t.firstAverage == Mean(first) && t.secondAverage == Mean(second)
    ensures t.change == t.secondAverage - t.firstAverage
    ensures -100.0 <= t.change <= 100.0
  {
    MeanBounds(first, 0.0, 100.0);
    MeanBounds(second, 0.0, 100.0);
    HalfTrend(Mean(first), Mean(second), Mean(second) - Mean(first))
  }

  /** The trend of the populated months: the mean rate of the second-half
      months minus that of the first-half months, defined only when both
      halves hold a populated month. */
  function TrendOf(rates: map<int, real>): (t: Option<HalfTrend>)
    requires MonthKeyed(rates) && Percentages(rates)
    ensures t.Some? ==> 0.0 <= t.value.firstAverage <= 100.0 && 0.0 <= t.value.secondAverage <= 100.0
    ensures t.Some? ==> t.value.change == t.value.secondAverage - t.value.firstAverage
    ensures t.Some? ==> -100.0 <= t.value.change <= 100.0
    ensures t.Some? <==> |HalfRates(rates, InFirstHalf)| > 0 && |HalfRates(rates, InSecondHalf)| > 0
    ensures t.Some? ==> t.value.firstAverage == Mean(HalfRates(rates, InFirstHalf))
    ensures t.Some? ==> t.value.secondAverage == Mean(HalfRates(rates, InSecondHalf))
  {
    var first := HalfRates(rates, InFirstHalf);
    var second := HalfRates(rates, InSecondHalf);
    if |first| > 0 && |second| > 0 then Some(CompareHalves(first, second)) else None
  }

  /** A half of the sorted months is non-empty exactly when some month of
      `keys` lies in it. */
  lemma HalfNonEmptyIff(keys: set<int>, half: int -> bool)
    requires forall k :: k in keys ==> 1 <= k <= 12
    ensures |Filter(SortedMonths(keys), half)| > 0 <==> exists m :: m in keys && half(m)
  {
    var f := Filter(SortedMonths(keys), half);
    FilterMembers(SortedMonths(keys), half);
    if |f| > 0 {
      assert f[0] in f;
    }
    if exists m :: m in keys && half(m) {
      var m :| m in keys && half(m);
      assert m in f;
    }
  }

  /** The trend is defined exactly when some populated month lies in the
      first half and some in the second. */
  lemma TrendDefinedIff(rates: map<int, real>)
    requires MonthKeyed(rates) && Percentages(rates)
    ensures TrendOf(rates).Some? <==> (exists m :: m in rates && InFirstHalf(m)) && (exists m :: m in rates && InSecondHalf(m))
  {
    HalfNonEmptyIff(rates.Keys, InFirstHalf);
    HalfNonEmptyIff(rates.Keys, InSecondHalf);
  }

  /** The half-year rates are exactly the rates of that half's populated
      months: each listed rate belongs to such a month, and each such
      month's rate is listed. */
  lemma HalfRatesOfHalf(rates: map<int, real>, half: int -> bool)
    requires MonthKeyed(rates) && Percentages(rates)
    ensures forall i :: 0 <= i < |HalfRates(rates, half)| ==>
      exists m :: m in rates && half(m) && HalfRates(rates, half)[i] == rates[m]
    ensures forall m :: m in rates && half(m) ==> rates[m] in HalfRates(rates, half)
  {
    var months := SortedMonths(rates.Keys);
    var f := Filter(months, half);
    var rs := HalfRates(rates, half);
    FilterMembers(months, half);
    forall i | 0 <= i < |rs|
      ensures exists m :: m in rates && half(m) && rs[i] == rates[m]
    {
      assert f[i] in f;
      assert rs[i] == rates[f[i]];
    }
    forall m | m in rates && half(m)
      ensures rates[m] in rs
    {
      assert m in f;
      var i :| 0 <= i < |f| && f[i] == m;
      assert rs[i] == rates[m];
    }
  }

  /** Each half-year average lies within the bounds of that half's monthly
      rates: the first average is taken over the months up to June only,
      the second over the months from July only. */
  lemma HalfAveragesBounded(rates: map<int, real>, lo1: real, hi1: real, lo2: real, hi2: real)
    requires MonthKeyed(rates) && Percentages(rates) && TrendOf(rates).Some?
    requires forall m :: m in rates && InFirstHalf(m) ==> lo1 <= rates[m] <= hi1
    requires forall m :: m in rates && InSecondHalf(m) ==> lo2 <= rates[m] <= hi2
    ensures lo1 <= TrendOf(rates).value.firstAverage <= hi1
    ensures lo2 <= TrendOf(rates).value.secondAverage <= hi2
  {
    HalfRatesOfHalf(rates, InFirstHalf);
    HalfRatesOfHalf(rates, InSecondHalf);
    MeanBounds(HalfRates(rates, InFirstHalf), lo1, hi1);
    MeanBounds(HalfRates(rates, InSecondHalf), lo2, hi2);
  }

  /** The trend's sign follows the halves: when no first-half month beats
      `x` and every second-half month reaches it, the trend reads
      "Improving"; when every first-half month reaches `x` and no
      second-half month beats it, the change is at most 0. */
  lemma TrendSign(rates: map<int, real>, x: real)
    requires MonthKeyed(rates) && Percentages(rates) && TrendOf(rates).Some?
    ensures (forall m :: m in rates && InFirstHalf(m) ==> rates[m] <= x) &&
            (forall m :: m in rates && InSecondHalf(m) ==> x <= rates[m]) ==>
      TrendOf(rates).value.change >= 0.0 && DirectionOf(TrendOf(rates).value.change) == Improving
    ensures (forall m :: m in rates && InFirstHalf(m) ==> x <= rates[m]) &&
            (forall m :: m in rates && InSecondHalf(m) ==> rates[m] <= x) ==>
      TrendOf(rates).value.change <= 0.0
  {
    if (forall m :: m in rates && InFirstHalf(m) ==> rates[m] <= x) &&
       (forall m :: m in rates && InSecondHalf(m) ==> x <= rates[m]) {
      HalfAveragesBounded(rates, 0.0, x, x, 100.0);
    }
    if (forall m :: m in rates && InFirstHalf(m) ==> x <= rates[m]) &&
       (forall m :: m in rates && InSecondHalf(m) ==> rates[m] <= x) {
      HalfAveragesBounded(rates, x, 100.0, 0.0, x);
    }
  }

  /** The position in `order` of the best month as
      `max(perf.keys(), key=rate)` picks it: scanning `order`, a later month
      replaces the current best only with a strictly higher rate, so the
      first month with the top rate wins. */
  function BestAt(rates: map<int, real>, order: seq<int>): (i: nat)
    requires |order| > 0
    requires forall j :: 0 <= j < |order| ==> order[j] in rates
    ensures i < |order|
    ensures forall j :: 0 <= j < |order| ==> rates[order[j]] <= rates[order[i]]
    ensures forall j :: 0 <= j < i ==> rates[order[j]] < rates[order[i]]
    decreases |order|
  {
    if |order| == 1 then 0
    else
      var init := order[..|order| - 1];
      var b := BestAt(rates, init);
      var last := |order| - 1;
      assert forall j :: 0 <= j < |init| ==> init[j] == order[j];
      if rates[order[last]] > rates[order[b]] then last else b
  }

  /** The position in `order` of the worst month as
      `min(perf.keys(), key=rate)` picks it: a later month replaces the
      current worst only with a strictly lower rate. */
  function WorstAt(rates: map<int, real>, order: seq<int>): (i: nat)
    requires |order| > 0
    requires forall j :: 0 <= j < |order| ==> order[j] in rates
    ensures i < |order|
    ensures forall j :: 0 <= j < |order| ==> rates[order[i]] <= rates[order[j]]
    ensures forall j :: 0 <= j < i ==> rates[order[i]] < rates[order[j]]
    decreases |order|
  {
    if |order| == 1 then 0
    else
      var init := order[..|order| - 1];
      var w := WorstAt(rates, init);
      var last := |order| - 1;
      assert forall j :: 0 <= j < |init| ==> init[j] == order[j];
      if rates[order[last]] < rates[order[w]] then last else w
  }

  /** The won deals summed over `months`. */
  function SumWon(perf: map<int, Bucket>, months: seq<int>): nat
    requires forall i :: 0 <= i < |months| ==> months[i] in perf
  {
    if |months| == 0 then 0
    else SumWon(perf, months[..|months| - 1]) + perf[months[|months| - 1]].won
  }

  /** The closed deals summed over `months`. */
  function SumTotal(perf: map<int, Bucket>, months: seq<int>): nat
    requires forall i :: 0 <= i < |months| ==> months[i] in perf
  {
    if |months| == 0 then 0
    else SumTotal(perf, months[..|months| - 1]) + perf[months[|months| - 1]].total
  }

  /** Over any list of populated months there are no more wins than closed
      deals, and at least one closed deal per month listed. */
  lemma {:induction false} SumsBounded(perf: map<int, Bucket>, months: seq<int>)
    requires WellFormed(perf)
    requires forall i :: 0 <= i < |months| ==> months[i] in perf
    ensures SumWon(perf, months) <= SumTotal(perf, months)
    ensures SumTotal(perf, months) >= |months|
    decreases |months|
  {
    if |months| > 0 {
      var init := months[..|months| - 1];
      var m := months[|months| - 1];
      SumsBounded(perf, init);
      assert perf[m].won <= perf[m].total && perf[m].total >= 1;
      assert SumWon(perf, months) == SumWon(perf, init) + perf[m].won;
      assert SumTotal(perf, months) == SumTotal(perf, init) + perf[m].total;
    }
  }

  /** The direction the summary states: any negative change reads as
      declining, zero or more as improving. */
  datatype Direction = Declining | Improving

  function DirectionOf(change: real): (d: Direction)
    ensures d == Declining <==> change < 0.0
    ensures change == 0.0 ==> d == Improving
  {
    if change < 0.0 then Declining else Improving
  }

  /** The recommendation printed from the trend. */
  datatype Recommendation = ReviewDecline | ReplicateSuccess | KeepStable

  /** A change of more than this many percentage points is significant. */
  const SignificantChange: real := 2.0

  /** The recommendation for a change of the half-year average: review a
      significant decline, replicate a significant improvement, otherwise
      keep the course. It never contradicts the stated direction. */
  function RecommendationFor(change: real): (rec: Recommendation)
    ensures rec == KeepStable <==> -SignificantChange <= change <= SignificantChange
    ensures rec == ReviewDecline ==> DirectionOf(change) == Declining
    ensures rec == ReplicateSuccess ==> DirectionOf(change) == Improving
  {
    if change < -SignificantChange then ReviewDecline
    else if change > SignificantChange then ReplicateSuccess
    else KeepStable
  }

  /** The recommendation is monotone in the change: a larger change is
      never advised more cautiously. */
  lemma RecommendationConsistent(change: real, larger: real)
    requires change <= larger
    ensures RecommendationFor(larger) == ReviewDecline ==> RecommendationFor(change) == ReviewDecline
    ensures RecommendationFor(change) == ReplicateSuccess ==> RecommendationFor(larger) == ReplicateSuccess
  {
  }

  /** The trend together with what the summary says about it. */
  datatype Outlook = Outlook(trend: HalfTrend, direction: Direction, recommendation: Recommendation)

  /** The best and worst month and their rates. */
  datatype Extremes = Extremes(best: int, bestRate: real, worst: int, worstRate: real)

  /** Everything the Section 5 summary reports. */
  datatype WinRateSummary = WinRateSummary(
    months: seq<int>,
    rates: seq<real>,
    outlook: Option<Outlook>,
    extremes: Option<Extremes>,
    totalWon: nat,
    totalDeals: nat,
    annualRate: real)

  /** Why the analysis script stops. */
  datatype Crash =
    | MaxOfEmptySequence  // `max` over the keys of an empty dictionary
    | TrendUnbound        // `trend` read although it was never assigned

  function OutlookFor(t: HalfTrend): Outlook
  {
    Outlook(t, DirectionOf(t.change), RecommendationFor(t.change))
  }

  function ExtremesOf(rates: map<int, real>, order: seq<int>): Extremes
    requires |order| > 0 && forall j :: 0 <= j < |order| ==> order[j] in rates
  {
    var b := order[BestAt(rates, order)];
    var w := order[WorstAt(rates, order)];
    Extremes(b, rates[b], w, rates[w])
  }

  /** The summary as the analysis script computes it. The script reads
      `trend` unconditionally, although it only assigns it when both halves
      are populated, and takes `max` of the keys even when there are none;
      both stop the run. */
  function SummariseAsWritten(perf: map<int, Bucket>, order: seq<int>): (r: Result<WinRateSummary, Crash>)
    requires WellFormed(perf) && ListsKeys(perf, order)
    ensures r.Failure? <==> |order| == 0 || TrendOf(RateTable(perf)).None?
    ensures |order| == 0 ==> r.error == MaxOfEmptySequence
    ensures r.Success? ==> r.value.outlook.Some? && r.value.extremes.Some? && r.value.totalWon <= r.value.totalDeals
  {
    var rates := RateTable(perf);
    var months := SortedMonths(perf.Keys);
    var trend := TrendOf(rates);
    if |order| == 0 then Failure(MaxOfEmptySequence)
    else if trend.None? then Failure(TrendUnbound)
    else
      var won := SumWon(perf, months);
      var deals := SumTotal(perf, months);
      SumsBounded(perf, months);
      Success(WinRateSummary(
        months, RatesOf(rates, months), Some(OutlookFor(trend.value)), Some(ExtremesOf(rates, order)),
        won, deals, Rate(Bucket(won, deals))))
  }

  /** The summary as evidently intended: the trend and what depends on it
      are reported only when defined, the extremes only when a month is
      populated, and the annual rate defaults to 0 without closed deals. */
  function Summarise(perf: map<int, Bucket>, order: seq<int>): (s: WinRateSummary)
    requires WellFormed(perf) && ListsKeys(perf, order)
    ensures s.extremes.Some? <==> |order| > 0
    ensures s.outlook.Some? <==> TrendOf(RateTable(perf)).Some?
  {
    var rates := RateTable(perf);
    var months := SortedMonths(perf.Keys);
    var trend := TrendOf(rates);
    var won := SumWon(perf, months);
    var deals := SumTotal(perf, months);
    WinRateSummary(
      months,
      RatesOf(rates, months),
      if trend.Some? then Some(OutlookFor(trend.value)) else None,
      if |order| > 0 then Some(ExtremesOf(rates, order)) else None,
      won,
      deals,
      if deals > 0 then Rate(Bucket(won, deals)) else 0.0)
  }

  /** The corrected summary's best and worst month: present exactly when a
      month is populated, taken from the grouping with their own rates,
      bounding every month's rate, and the first such month in
      first-appearance order. */
  lemma SummaryExtremes(perf: map<int, Bucket>, order: seq<int>)
    requires WellFormed(perf) && ListsKeys(perf, order)
    ensures Summarise(perf, order).extremes.Some? <==> perf != map[]
    ensures Summarise(perf, order).extremes.Some? ==>
      var e := Summarise(perf, order).extremes.value;
      && e.best in perf && e.worst in perf
      && e.bestRate == Rate(perf[e.best]) && e.worstRate == Rate(perf[e.worst])
      && (forall m :: m in perf ==> e.worstRate <= Rate(perf[m]) <= e.bestRate)
    ensures Summarise(perf, order).extremes.Some? ==>
      var e := Summarise(perf, order).extremes.value;
      && (exists i :: 0 <= i < |order| && order[i] == e.best && forall j :: 0 <= j < i ==> Rate(perf[order[j]]) < e.bestRate)
      && (exists i :: 0 <= i < |order| && order[i] == e.worst && forall j :: 0 <= j < i ==> e.worstRate < Rate(perf[order[j]]))
  {
    if |order| == 0 {
      assert perf == map[];
    } else {
      assert order[0] in perf;
      var rates := RateTable(perf);
      var b := BestAt(rates, order);
      var w := WorstAt(rates, order);
      forall m | m in perf
        ensures rates[order[w]] <= rates[m] <= rates[order[b]]
      {
        assert m in order;
        var j :| 0 <= j < |order| && order[j] == m;
      }
    }
  }


  /** The corrected summary's totals: no more wins than deals, no deals
      exactly when no month is populated, and an annual rate that is a
      percentage. */
  lemma SummaryTotals(perf: map<int, Bucket>, order: seq<int>)
    requires WellFormed(perf) && ListsKeys(perf, order)
    ensures Summarise(perf, order).totalWon <= Summarise(perf, order).totalDeals
    ensures Summarise(perf, order).totalDeals == 0 <==> perf == map[]
    ensures 0.0 <= Summarise(perf, order).annualRate <= 100.0
  {
    var months := SortedMonths(perf.Keys);
    SumsBounded(perf, months);
    if |months| == 0 {
      assert perf == map[];
    } else {
      assert months[0] in perf;
    }
  }

  /** The corrected summary lists the populated months in ascending order,
      each with its own rate. */
  lemma SummaryMonths(perf: map<int, Bucket>, order: seq<int>)
    requires WellFormed(perf) && ListsKeys(perf, order)
    ensures var s := Summarise(perf, order);
      && (forall m :: m in s.months <==> m in perf)
      && (forall i, j :: 0 <= i < j < |s.months| ==> s.months[i] < s.months[j])
      && |s.rates| == |s.months|
      && (forall i :: 0 <= i < |s.months| ==> s.months[i] in perf && s.rates[i] == Rate(perf[s.months[i]]))
  {
  }

  /** The corrected summary has an outlook exactly when the trend is
      defined; it carries that trend, reads its direction and advice off the
      trend's change, and its recommendation agrees with its direction. */
  lemma SummaryOutlook(perf: map<int, Bucket>, order: seq<int>)
    requires WellFormed(perf) && ListsKeys(perf, order)
    ensures Summarise(perf, order).outlook.Some? <==> TrendOf(RateTable(perf)).Some?
    ensures Summarise(perf, order).outlook.Some? ==>
      var o := Summarise(perf, order).outlook.value;
      && o.trend == TrendOf(RateTable(perf)).value
      && o.direction == DirectionOf(o.trend.change)
      && o.recommendation == RecommendationFor(o.trend.change)
      && (o.recommendation == ReviewDecline ==> o.direction == Declining)
      && (o.recommendation == ReplicateSuccess ==> o.direction == Improving)
  {
  }

  /** No months of `keys` from `m` onwards leaves nothing to list. */
  lemma {:induction false} MonthsFromNone(keys: set<int>, m: int)
    requires 1 <= m <= 13
    requires forall k :: m <= k <= 12 ==> k !in keys
    ensures MonthsFrom(keys, m) == []
    decreases 13 - m
  {
    if m < 13 {
      MonthsFromNone(keys, m + 1);
    }
  }

  /** The populated months of the example below, in order. */
  lemma SortedExampleMonths()
    ensures SortedMonths({1, 7}) == [1, 7]
  {
    var keys: set<int> := {1, 7};
    MonthsFromNone(keys, 8);
    assert MonthsFrom(keys, 7) == [7];
    assert MonthsFrom(keys, 6) == [7];
    assert MonthsFrom(keys, 5) == [7];
    assert MonthsFrom(keys, 4) == [7];
    assert MonthsFrom(keys, 3) == [7];
    assert MonthsFrom(keys, 2) == [7];
    assert MonthsFrom(keys, 1) == [1, 7];
  }

  /** The grouping of the example below: January with its single deal won,
      July with its three deals lost. */
  function UnevenMonths(): (perf: map<int, Bucket>)
    ensures WellFormed(perf) && ListsKeys(perf, [1, 7])
    ensures SortedMonths(perf.Keys) == [1, 7]
  {
    var perf := map[1 := Bucket(1, 1), 7 := Bucket(0, 3)];
    assert perf.Keys == {1, 7};
    SortedExampleMonths();
    perf
  }

  /** The example's summed wins and closed deals and its monthly rates. */
  lemma UnevenMonthsFigures()
    ensures SumWon(UnevenMonths(), [1, 7]) == 1 && SumTotal(UnevenMonths(), [1, 7]) == 4
    ensures RatesOf(RateTable(UnevenMonths()), [1, 7]) == [100.0, 0.0]
  {
    assert [1, 7][..1] == [1];
  }

  /** The annual rate pools the deals of all months, so it is not the mean
      of the monthly rates: one month with its single deal won and another
      with its three deals lost have monthly rates 100 and 0 (mean 50), but
      an annual rate of 1 in 4, that is 25. */
  lemma AnnualRateNotMeanOfMonths()
    ensures Summarise(UnevenMonths(), [1, 7]).rates == [100.0, 0.0]
    ensures Mean(Summarise(UnevenMonths(), [1, 7]).rates) == 50.0
    ensures Summarise(UnevenMonths(), [1, 7]).annualRate == 25.0
  {
    UnevenMonthsFigures();
    var s := Summarise(UnevenMonths(), [1, 7]);
    assert s.months == [1, 7];
    MeanOfUnevenRates();
  }

  /** The two monthly rates of the uneven example average to 50. */
  lemma MeanOfUnevenRates()
    ensures Mean([100.0, 0.0]) == 50.0
  {
    var rs: seq<real> := [100.0, 0.0];
    assert rs[..1] == [100.0];
    assert Sum(rs) == 100.0;
  }
}

=== FILE: wrappers.dfy ===
/** Failure-carrying values used where the reports either produce a value
    or stop with an error. */
module Wrappers {

  /** A value that may be absent, such as a trend that was never computed. */
  datatype Option<+T> = None | Some(value: T) {

    /** The carried value, or `default` when there is none (the behaviour of
        a dictionary `get` with a default). */
    function GetOr(default: T): T {
      match this
      case Some(v) => v
      case None => default
    }
  }

  /** Either a computed value or the error that stopped the computation. */
  datatype Result<+R, +E> = Success(value: R) | Failure(error: E)
}
